=== FILE: README.md ===
# SIC two-pass assembler — Dafny model

This project models the assembler core of `gui.py`: a small two-pass assembler for SIC (the
Simplified Instructional Computer) that sits behind a tkinter window. The window reads two text
areas (the source program and the operation table), runs the assembler, and shows four listings:
the intermediate file, the symbol table, the output listing and the object program.

- **Operation table** (`parse_optab`). Every line of the table text that splits into exactly two
  whitespace tokens maps its mnemonic to its object-code prefix. A repeated mnemonic keeps its
  last prefix.
- **Pass 1** (`pass1`, `process_line_pass1`). This pass walks the source lines and keeps a
  location counter.
  - A three-token `START` line sets the counter to its operand read as hex. It records
    `"-\t" + line`.
  - Every other two- or three-token line binds its label (unless the label is `-`) to the
    counter's lowercase, unpadded hex (`hex(n)[2:]`). It records `address\tlabel\topcode\toperand`.
    It then advances the counter by 3, `3*n`, `n`, `len(operand)-3` or 0, according to the opcode.
- **Pass 2, output listing** (`generate_output_file`, `process_line_pass2`). Every intermediate
  line with three or four tokens is listed with its object code:
  - the table prefix plus the operand's address, or `0000` when the operand is unbound;
  - the literal text for `BYTE`;
  - six uppercase hex digits for `WORD`.
- **Pass 2, object program** (`generate_object_code`). It writes four records:
  - a Header record, whose length is the last entry's address less the start address;
  - a Text header with a byte count;
  - the `^`-separated text body;
  - an End record.
- **Getters** (`get_*`). Each joins the accumulated lines with newlines. The symbol table is
  listed in insertion order, one `label\taddress\t0` line per symbol.

The `Assembler` object keeps its state in fields that its methods update in place, so it is
modelled as a Dafny `class` (module `Assembler`). Each of its state-changing methods, and the
loop of `parse_optab`, is proved against a specification function over the state:

| Python | specification function |
|---|---|
| `pass1` | `PassOne.Pass1` |
| `generate_output_file` | `PassTwo.GenerateOutputFile` |
| `generate_object_code` | `ObjectProgram.GenerateObjectCode` |
| `parse_optab` | `Optab.TableOf` |

The lemmas about those functions state what the assembler promises. The `get_*` getters are
Dafny functions of the object's fields; each ensures that its joined text splits back into the
lines it joined.

Python's exceptions are modelled as the `Error` datatype:
- `InvalidLiteral(text, base)` is the `ValueError` of `int()`.
- `IndexOutOfRange` is the `IndexError` of `lines[-1]` or `split()[3]`.

A run that raises keeps exactly the partial state Python leaves behind. The location counter is
an unbounded integer. Negative counters, which arise from a short `BYTE` operand, a negative
`RESW`/`RESB` or a negative START operand (`int("-10", 16)`), are modelled as Python formats
them:
- `hex(n)[2:]` gives `"x…"`;
- `format(n, '06X')` gives `"-0000A"`.

No input text is excluded by a precondition.

Five behaviours of `gui.py` that a reader might not expect are modelled as the code has them:

- **The START record is listed.** The START entry `"-\t" + line` re-splits into four tokens, so
  pass 2 lists it, with empty object code, like any other four-token entry
  (`PassTwo.StartRecordListed`).
- **The table can have fewer keys than two-token lines.** A repeated mnemonic overwrites its
  earlier prefix, so the table has as many keys as two-token lines only when no mnemonic is
  repeated (`Optab.TableOfSize`).
- **The Header comes from the first entry.** The Header and Text header read tokens 1 and 3 of
  the first intermediate line, whatever that line is, and raise when it has fewer than four
  tokens.
- **Entries without an operand are left out of the object program.** Both loops of
  `generate_object_code` look only at four-token entries, so a two-token line such as `- RSUB`
  is listed with its object code but adds no bytes and no text fragment (`ObjectProgram.Scan`,
  `ObjectProgram.Fragments`).
- **An unrecognised opcode is counted but writes nothing.** The byte count adds 3 for any
  four-token entry that is not a directive, while the text loop writes no fragment for an opcode
  that is neither in the table nor WORD or BYTE (`ObjectProgram.ByteCount`,
  `ObjectProgram.Fragment`; `ObjectProgram.ByteCountMatchesBody` holds only for well-sized
  entries).

## Model

| member | source | states |
|---|---|---|
| Text.Split | gui.py:63 | `str.split()`: every piece is a non-empty run of non-whitespace characters (Python's whitespace set) |
| Text.SplitNone | gui.py:63 | `str.split()` finds no piece exactly when every character is whitespace |
| Text.SplitJoinTokens | gui.py:63 | any tokens joined by tabs split back into exactly those tokens, in order |
| Text.SplitAfterToken | gui.py:80 | a token followed by whitespace and more text splits into that token followed by the split of the rest |
| Text.SplitFourFields | gui.py:98 | a tab-joined `address\tlabel\topcode\toperand` splits back into its tokens, with the operand dropped when empty |
| Text.SplitTabPrefixed | gui.py:84 | `"-\t" + line` splits into `"-"` followed by the line's own tokens |
| Text.SplitOn | gui.py:61 | `str.split("\n")`: at least one piece, and no piece contains the separator |
| Text.JoinSplitOn | gui.py:78 | joining the pieces of `split(sep)` with `sep` gives back the text |
| Text.SplitOnJoin | gui.py:190-200 | at least one line without the separator, joined by it, splits back into exactly those lines |
| Text.TrimEnd | gui.py:187 | `rstrip('^')`: the result is a prefix of the input, does not end in `^`, and only `^` were removed |
| Hex.Digits | gui.py:96 | digits of `hex()`/`format(…,'X')`: hex digits only, uppercase when asked, with no leading zero |
| Hex.LowerDigits | gui.py:96 | the digits `hex()` writes are lowercase |
| Hex.PyHexLower | gui.py:96 | `hex(n)[2:]` is lowercase hex digits for n ≥ 0, and `x` followed by lowercase digits for negative n |
| Hex.DigitsValue | gui.py:83 | a digit string has a value exactly when it is non-empty and every character is a digit of the base |
| Hex.DigitsRoundTrip | gui.py:96 | reading the digits of n back in base 16 gives n |
| Hex.PyHexRoundTrip | gui.py:96 | `int(hex(n)[2:], 16)` is n for n ≥ 0, and raises for negative n (the text starts with `x`) |
| Hex.FormatHexRoundTrip | gui.py:140 | `int(format(n, '0wX'), 16)` is n, for every integer n and width w |
| Hex.DigitsFit | gui.py:140 | for k ≥ 1, `format(n, '0kX')` has exactly k characters when 0 ≤ n < 16^k |
| Hex.ByteHexRoundTrip | gui.py:184 | for character codes 0x10..0xFF, `''.join(format(ord(c),'X'))` has two digits per character and decodes back to the text |
| Hex.ByteHexEof | gui.py:184 | the BYTE literal `C'EOF'` encodes as `454F46` |
| Optab.ParseOptab | gui.py:59-66 | the loop fills the table `TableOf` describes: one update per two-token line, in order |
| Optab.TableOfKeys | gui.py:62-65 | a mnemonic is a key exactly when some two-token line defines it; no other line adds a key |
| Optab.TableOfLast | gui.py:62-65 | a mnemonic maps to the second token of the last line that defines it, so a repeated mnemonic keeps its last prefix |
| Optab.TableOfSize | gui.py:62-65 | there are no more keys than two-token lines, and exactly as many when no mnemonic is repeated |
| Symtab.Lookup | gui.py:133-134 | `operand in symtab`: absent exactly when no entry has that label, and otherwise the value is an entry's address |
| Symtab.LookupUpsert | gui.py:96 | after `symtab[label] = a`, the label maps to a and every other label is unchanged |
| Symtab.UpsertOrder | gui.py:96 | the labels stay unique; a re-bound label keeps its place, and a new label is added at the end |
| Symtab.UpsertTokens | gui.py:96 | binding a token to a token keeps every label and address of the table a token |
| Symtab.NoNewline | gui.py:80 | a token of `split()` never contains a newline |
| Symtab.ListingTokens | gui.py:193-194 | over a table of tokens, every listing line is newline-free and splits back into its label, its address and `0` |
| Symtab.ListingFields | gui.py:194 | a symbol-table line `label\taddress\t0` splits back into its three fields |
| PassOne.PyHexIsToken | gui.py:96-98 | the recorded address is a single token and never the placeholder `-` |
| PassOne.EntryFields | gui.py:98 | an intermediate line splits back into the address followed by the line's tokens |
| PassOne.OperationLineRecords | gui.py:85-98 | a two- or three-token line that is not START appends exactly one entry, whose split is the address followed by the line's tokens |
| PassOne.OperationLineBinds | gui.py:95-96 | a label other than `-` is bound to the current address, overwriting any earlier binding, and no other label changes |
| PassOne.OperationLineAdvances | gui.py:100-109 | the counter grows by 3 for a table opcode (checked first) or WORD, 3n for RESW n, n for RESB n, len−3 for BYTE, and 0 otherwise; the line raises exactly for RESW/RESB with a non-decimal operand |
| PassOne.StartLine | gui.py:81-84 | START sets the counter to its operand read as hex, leaves the symbol table alone, and records an entry that splits into `-` and the line's tokens; when the operand is not hex it raises and changes nothing |
| PassOne.LineRecords | gui.py:79-88 | a line that raises nothing leaves the table and the pass 2 outputs alone; it appends exactly one entry, recorded for it, when it has two or three tokens, and leaves the intermediate file unchanged otherwise |
| PassOne.SkippedLine | gui.py:79-88 | a line of neither two nor three tokens changes nothing and raises nothing |
| PassOne.Entries | gui.py:77-88 | when pass 1 raises nothing, the intermediate file holds exactly one entry per two- or three-token line, in source order |
| PassOne.LinesStop | gui.py:77-88 | an exception ends pass 1, and later lines change nothing |
| PassOne.InitialAgrees | gui.py:69-75 | a fresh assembler's empty symbol table agrees with its empty intermediate file |
| PassOne.LineAgrees | gui.py:79-98 | one line keeps every label bound to the address of its last definition in the intermediate file, with labels unique |
| PassOne.LinesAgree | gui.py:77-98 | after pass 1, whether or not it raised, every label maps to the address of its last definition |
| PassOne.LineTokens | gui.py:79-98 | one line, whether or not it raises, keeps every label and address of the symbol table a token |
| PassOne.LinesTokens | gui.py:77-98 | pass 1 keeps every label and address of the symbol table a token |
| PassOne.Pass1Tokens | gui.py:77-98 | whatever the source text, pass 1 binds tokens to tokens |
| PassOne.LineUnbroken | gui.py:84-98 | one line of pass 1 records only a newline-free entry |
| PassOne.LinesUnbroken | gui.py:77-98 | pass 1 over newline-free lines keeps every entry newline-free |
| PassOne.Pass1Unbroken | gui.py:77-98 | whatever the source text, pass 1 records no entry containing a newline |
| PassTwo.LiteralText | gui.py:138 | `operand[2:-1]`: the operand's characters from index 2 up to its last, three fewer than the operand, or empty when it has fewer than three |
| PassTwo.OutputLines | gui.py:115-142 | one output line per three- or four-token entry, in order, holding that entry's fields and object code; nothing else changes; it raises exactly when a listed WORD operand is not decimal |
| PassTwo.ListLine | gui.py:117-142 | one entry raises exactly for a listed WORD whose operand is not decimal; otherwise it appends its output line when it has three or four tokens and nothing when it has not; only the output file changes |
| PassTwo.ExpectedListed | gui.py:115-142 | when no entry raises, the lines written are one per three- or four-token entry, in order, each holding that entry's fields and object code |
| PassTwo.LinesStop | gui.py:115-122 | an exception ends the listing loop, and later entries change nothing |
| PassTwo.ResolvesToDefinition | gui.py:131-136 | after pass 1, an instruction's code is its prefix plus the address of the operand's last definition, or `0000` when the operand is undefined |
| PassTwo.WordCodeReadsBack | gui.py:139-140 | WORD's code reads back, as hex, to the decimal operand, is six digits wide when the value fits, and is uppercase hex digits, after a `-` for a negative value |
| PassTwo.StartRecordListed | gui.py:119-142 | when START is not a table mnemonic, the START entry is listed as `-\tname\tSTART\tstart\t` with empty object code |
| ObjectProgram.TextBodyIsJoin | gui.py:180-187 | the text body is the fragments joined by `^`, once the trailing `^` are stripped, when the last fragment is non-empty and does not end in `^` |
| ObjectProgram.ScanStart | gui.py:149-154 | the start address is the operand of the last four-field START entry, read as hex |
| ObjectProgram.ScanNoStart | gui.py:145-154 | without a four-field START entry the counting loop cannot raise, and the start address stays 0 |
| ObjectProgram.ScanStop | gui.py:149-154 | an exception in the counting loop ends it, and later entries change nothing |
| ObjectProgram.FragmentsStop | gui.py:168-182 | an exception in the text loop ends it, and later entries change nothing |
| ObjectProgram.ByteCountMatchesBody | gui.py:149-185 | when every entry is well sized, the Text header's byte count is half the number of hex digits in the text body |
| ObjectProgram.FragmentSize | gui.py:153-185 | one well-sized entry writes two hex digits per byte it is counted for |
| ObjectProgram.EmptyProgram | gui.py:160 | with no intermediate entries, `lines[-1]` raises and nothing is written |
| ObjectProgram.StartRecordLast | gui.py:160 | when the last entry is the START record, its address `-` is not hex and the writer raises, writing nothing |
| ObjectProgram.Records | gui.py:160-188 | without an exception, exactly Header, Text header, text body and End are appended; the length is end less start, and the End record's address reads back as the start |
| ObjectProgram.EndAddressIsLastLocation | gui.py:77-160 | when pass 1 ends on an operation line, the end address read from the last entry is the counter pass 1 held at that line, and reading it raises when that counter was negative |
| ObjectProgram.Pass2Frame | gui.py:111-113 | pass 2 changes only the output file and the object program |
| Assembler.Assembler.constructor | gui.py:69-75 | a new assembler holds the given table, with everything else empty and the counter at 0 |
| Assembler.Assembler.Pass1 | gui.py:77-88 | the fields and the exception after the loop are those `PassOne.Pass1` gives |
| Assembler.Assembler.Pass1Line | gui.py:79-88 | one iteration of the pass 1 loop changes the fields and raises as `PassOne.Line` gives |
| Assembler.Assembler.Increment | gui.py:100-109 | the counter step, or the exception, is the one `PassOne.Advance` gives |
| Assembler.Assembler.ProcessLinePass1 | gui.py:90-109 | the fields and the exception are those `PassOne.ProcessLine` gives |
| Assembler.Assembler.Pass2 | gui.py:111-113 | the output file, then (unless it raised) the object program, as `ObjectProgram.Pass2` gives |
| Assembler.Assembler.GenerateOutputFile | gui.py:115-122 | the output file and the exception are those `PassTwo.GenerateOutputFile` gives |
| Assembler.Assembler.OutputLine | gui.py:117-122 | one iteration of the listing loop changes the output file and raises as `PassTwo.Line` gives |
| Assembler.Assembler.ProcessLinePass2 | gui.py:124-142 | the output line and the exception are those `PassTwo.ProcessLine` gives |
| Assembler.Assembler.GenerateObjectCode | gui.py:144-188 | the object program and the exception are those `ObjectProgram.GenerateObjectCode` gives |
| Assembler.Assembler.WriteRecords | gui.py:163-188 | the Header and Text header are appended, then the text loop runs, then the body and End record, as `ObjectProgram.WriteRecords` gives |
| Assembler.Assembler.CountBytes | gui.py:145-158 | the counting loop computes the start address and byte count that `ObjectProgram.Scan` defines, or its exception; `ObjectProgram.ScanStart` and `ObjectProgram.ScanNoStart` say which start address that is |
| Assembler.Assembler.TextRecord | gui.py:166-185 | the text loop builds the fragments `ObjectProgram.Fragments` defines, each followed by `^`, or raises its exception |
| Assembler.Assembler.GetIntermediateFile | gui.py:190-191 | the joined intermediate file splits back into the entries when there is at least one and none contains a newline |
| Assembler.Assembler.GetSymtab | gui.py:193-194 | when there is at least one symbol and no listing line holds a newline, the joined listing splits back into one `label\taddress\t0` line per symbol, in insertion order |
| Assembler.Assembler.GetOutputFile | gui.py:196-197 | the joined output file splits back into its lines when there is at least one and none contains a newline |
| Assembler.Assembler.GetObjectCode | gui.py:199-200 | the joined object program splits back into its records when there is at least one and none contains a newline |
| Assembler.Generate | gui.py:41-45 | parse the table, construct, run pass 1 and pass 2, and read the four getters, as `Assemble` defines |
| Assembler.SymbolListing | gui.py:41-51 | when a run succeeds and binds any symbol, the symbol listing shown splits back into one line per symbol in insertion order, each splitting into its label, address and `0` |
| Assembler.IntermediateListing | gui.py:44-48 | when a run succeeds, pass 1 recorded at least one entry, and the intermediate listing shown splits back into exactly those entries |

## Left out

- The tkinter window is not modelled: widget construction, `mainloop`, and reading and writing the
  text areas. `Generate` takes the two texts as parameters. It returns the four listings or the
  exception; an exception stops the run before any listing is shown.
- The newline that `Text.get("1.0", END)` appends is not added. It becomes a final empty line,
  which every loop ignores.
- `int()` accepts surrounding whitespace, `_` separators and non-ASCII decimal digits. The model
  accepts only an optional sign, an optional `0x`/`0X` prefix for base 16, and ASCII digits.
  Any other text is an `InvalidLiteral` error.
- Hex.ParseDecimal: does not model CPython's limit on decimal conversion. Since CPython 3.11 (and
  security releases back to 3.7), `int()` raises `ValueError` for a decimal string longer than 4300
  digits; the model reads any length, so a RESW, RESB or WORD operand that long advances the
  counter or is listed where Python would raise.
- Python strings may hold lone surrogate code points, which a Dafny `char` cannot. `ord` is the
  character's code.
- Python's dict is modelled as described here. `optab` is a map. `symtab` is a sequence of
  (label, address) pairs with unique labels: a re-bound label keeps its position, and a new label
  is appended.
- Running the whole program twice gives the same listings. This needs no lemma, because
  `Assemble` is a function.
- Assembler.Assembler.GetOutputFile: states the split-back only when there is at least one output
  line and no output line contains a newline. An empty output file shows as the empty text, which
  splits into one empty line. An output line can hold a newline only when a table prefix holds
  one. That can happen only when the constructor is given such a table directly, because
  `parse_optab` never produces one.
- Assembler.Assembler.GetObjectCode: states the split-back only when there is at least one record
  and no record contains a newline. An empty object program shows as the empty text, which splits
  into one empty line.
- Assembler.Assembler.GetSymtab: states the split-back only when there is at least one symbol and
  no listing line contains a newline. An empty table shows as the empty text, which splits into
  one empty line. After a successful run, `Assembler.SymbolListing` shows that the condition on
  newlines always holds.

=== FILE: assembler.dfy ===
/**
 * The `Assembler` object: its fields are updated in place by pass 1 and pass 2,
 * and its getters join the accumulated lines with newlines. `Generate` is the
 * GUI's button handler reduced to its calls: build the table, construct the
 * assembler, run both passes, read the four listings.
 */
module Assembler {
  import opened Wrappers
  import opened Text
  import opened Hex
  import opened Symtab
  import opened AsmState
  import Optab
  import PassOne
  import PassTwo
  import ObjectProgram

  class Assembler {
    var optab: map<string, string>
    var symtab: Table
    var intermediateFile: seq<string>
    var outputFile: seq<string>
    var objectCode: seq<string>
    var locctr: int

    /** The fields, as one value. */
    function Fields(): State
      reads this
    {
      State(optab, symtab, intermediateFile, outputFile, objectCode, locctr)
    }

    constructor (optab: map<string, string>)
      ensures Fields() == Initial(optab)
    {
      this.optab := optab;
      symtab := [];
      intermediateFile := [];
      outputFile := [];
      objectCode := [];
      locctr := 0;
    }

    /** `pass1`: every line of the source text in turn; an exception stops the loop. */
    method Pass1(inputCode: string) returns (error: Option<Error>)
      modifies this
      ensures Run(Fields(), error) == PassOne.Pass1(old(Fields()), inputCode)
    {
      ghost var initial := Fields();
      var lines := SplitOn(inputCode, '\n');
      var i := 0;
      while i < |lines|
        invariant 0 <= i <= |lines|
        invariant Run(Fields(), None) == PassOne.Lines(initial, lines[..i])
      {
        assert lines[..i + 1][..i] == lines[..i];
        error := Pass1Line(lines[i]);
        if error.Some? {
          PassOne.LinesStop(initial, lines, i + 1);
          return;
        }
        i := i + 1;
      }
      assert lines[..i] == lines;
      error := None;
    }

    /** The body of `pass1`'s loop for one line: a three-token START line sets the counter and
        records `"-\t" + line`; any other two- or three-token line goes to `process_line_pass1`. */
    method Pass1Line(line: string) returns (error: Option<Error>)
      modifies this
      ensures Run(Fields(), error) == PassOne.Line(old(Fields()), line)
    {
      var parts := Split(line);
      error := None;
      if |parts| == 3 && parts[1] == "START" {
        var start := ParseHex(parts[2]);
        if start.None? {
          return Some(InvalidLiteral(parts[2], 16));
        }
        locctr := start.value;
        intermediateFile := intermediateFile + ["-\t" + line];
      } else if |parts| == 2 || |parts| == 3 {
        error := ProcessLinePass1(parts);
      }
    }

    /** `process_line_pass1`: bind the label, record the line, then advance the counter. */
    method ProcessLinePass1(parts: seq<string>) returns (error: Option<Error>)
      requires |parts| == 2 || |parts| == 3
      modifies this
      ensures Run(Fields(), error) == PassOne.ProcessLine(old(Fields()), parts)
    {
      ghost var st := Fields();
      var symbol := parts[0];
      var opcode := parts[1];
      var operand := if |parts| == 3 then parts[2] else "";
      var address := PyHex(locctr);
      if symbol != "-" {
        symtab := Upsert(symtab, symbol, address);
      }
      intermediateFile := intermediateFile + [PassOne.Entry(address, symbol, opcode, operand)];
      assert Fields() == st.(
        symtab := if symbol != "-" then Upsert(st.symtab, symbol, address) else st.symtab,
        intermediateFile := st.intermediateFile + [PassOne.Entry(address, symbol, opcode, operand)]);
      var step := Increment(opcode, operand);
      if step.Err? {
        return Some(step.error);
      }
      locctr := locctr + step.value;
      error := None;
    }

    /** The if-chain at the end of `process_line_pass1`: how far the line moves the counter. The
        table is consulted first; `int(operand)` raises for RESW and RESB. */
    method Increment(opcode: string, operand: string) returns (step: Result<int, Error>)
      ensures step == PassOne.Advance(optab, opcode, operand)
    {
      if opcode in optab {
        step := Ok(3);
      } else if opcode == "WORD" {
        step := Ok(3);
      } else if opcode == "RESW" {
        var n := ParseDecimal(operand);
        if n.None? {
          return Err(InvalidLiteral(operand, 10));
        }
        step := Ok(3 * n.value);
      } else if opcode == "RESB" {
        var n := ParseDecimal(operand);
        if n.None? {
          return Err(InvalidLiteral(operand, 10));
        }
        step := Ok(n.value);
      } else if opcode == "BYTE" {
        step := Ok(|operand| - 3);
      } else {
        step := Ok(0);
      }
    }

    /** `pass2`: the output file, then the object program. Neither reads nor changes the symbol
        table, the intermediate file or the location counter. */
    method Pass2() returns (error: Option<Error>)
      modifies this`outputFile, this`objectCode
      ensures Run(Fields(), error) == ObjectProgram.Pass2(old(Fields()))
    {
      error := GenerateOutputFile();
      if error.Some? {
        return;
      }
      error := GenerateObjectCode();
    }

    /** `generate_output_file`. */
    method GenerateOutputFile() returns (error: Option<Error>)
      modifies this`outputFile
      ensures Run(Fields(), error) == PassTwo.GenerateOutputFile(old(Fields()))
    {
      ghost var initial := Fields();
      var lines := intermediateFile;
      var i := 0;
      while i < |lines|
        invariant 0 <= i <= |lines|
        invariant lines == intermediateFile == initial.intermediateFile
        invariant Run(Fields(), None) == PassTwo.Lines(initial, lines[..i])
      {
        assert lines[..i + 1][..i] == lines[..i];
        error := OutputLine(lines[i]);
        if error.Some? {
          PassTwo.LinesStop(initial, lines, i + 1);
          return;
        }
        i := i + 1;
      }
      assert lines[..i] == lines;
      error := None;
    }

    /** The body of `generate_output_file`'s loop for one entry: an entry of three or four tokens
        goes to `process_line_pass2`, any other is skipped. */
    method OutputLine(line: string) returns (error: Option<Error>)
      modifies this`outputFile
      ensures Run(Fields(), error) == PassTwo.Line(old(Fields()), line)
    {
      var parts := Split(line);
      error := None;
      if |parts| == 4 || |parts| == 3 {
        error := ProcessLinePass2(parts);
      }
    }

    /** `process_line_pass2`. */
    method ProcessLinePass2(parts: seq<string>) returns (error: Option<Error>)
      requires |parts| == 3 || |parts| == 4
      modifies this`outputFile
      ensures Run(Fields(), error) == PassTwo.ProcessLine(old(Fields()), parts)
    {
      var address := parts[0];
      var symbol := parts[1];
      var opcode := parts[2];
      var operand := if |parts| == 4 then parts[3] else "";
      var objCode := "";
      if opcode in optab {
        objCode := optab[opcode];
        var bound := Lookup(symtab, operand);
        if bound.Some? {
          objCode := objCode + bound.value;
        } else {
          objCode := objCode + "0000";
        }
      } else if opcode == "BYTE" {
        objCode := PassTwo.LiteralText(operand);
      } else if opcode == "WORD" {
        var n := ParseDecimal(operand);
        if n.None? {
          return Some(InvalidLiteral(operand, 10));
        }
        objCode := FormatHex(n.value, 6);
      }
      outputFile := outputFile + [address + "\t" + symbol + "\t" + opcode + "\t" + operand + "\t" + objCode];
      error := None;
    }

    /** `generate_object_code`: the counting loop, the Header and Text header, the text loop, then
        the text body and the End record. */
    method GenerateObjectCode() returns (error: Option<Error>)
      modifies this`objectCode
      ensures Run(Fields(), error) == ObjectProgram.GenerateObjectCode(old(Fields()))
    {
      var lines := intermediateFile;
      var scanned := CountBytes(lines);
      if scanned.Err? {
        return Some(scanned.error);
      }
      var (startAddress, count) := scanned.value;
      if |lines| == 0 {
        return Some(IndexOutOfRange);
      }
      var last := Split(lines[|lines| - 1]);
      if |last| == 0 {
        return Some(IndexOutOfRange);
      }
      var endAddress := ParseHex(last[0]);
      if endAddress.None? {
        return Some(InvalidLiteral(last[0], 16));
      }
      var first := Split(lines[0]);
      if |first| < 4 {
        return Some(IndexOutOfRange);
      }
      error := WriteRecords(first, startAddress, count, endAddress.value);
    }

    /** The Header and Text header records, then the text loop, the text body and the End record. */
    method WriteRecords(first: seq<string>, startAddress: int, count: int, endAddress: int)
      returns (error: Option<Error>)
      requires |first| >= 4
      modifies this`objectCode
      ensures Run(Fields(), error) == ObjectProgram.WriteRecords(old(Fields()), first, startAddress, count, endAddress)
    {
      ghost var st := Fields();
      var header := ObjectProgram.HeaderRecord(first[1], first[3], endAddress - startAddress);
      var textHeader := ObjectProgram.TextHeader(first[3], count);
      objectCode := objectCode + [header];
      objectCode := objectCode + [textHeader];
      assert objectCode == st.objectCode + [header, textHeader];
      ghost var headers := st.(objectCode := objectCode);
      assert Fields() == headers;
      var textRecord := TextRecord(intermediateFile);
      if textRecord.Err? {
        return Some(textRecord.error);
      }
      ghost var fragments := ObjectProgram.Fragments(optab, symtab, intermediateFile).value;
      assert textRecord.value == ObjectProgram.Terminated(fragments);
      var body := TrimEnd(textRecord.value, '^');
      var end := ObjectProgram.EndRecord(startAddress);
      objectCode := objectCode + [body];
      objectCode := objectCode + [end];
      assert objectCode == headers.objectCode + [body, end];
      error := None;
    }

    /** The first loop of `generate_object_code`: the start address from the START line and the
        byte count of the text record, over the four-field lines. */
    static method CountBytes(lines: seq<string>) returns (result: Result<(int, int), Error>)
      ensures result == ObjectProgram.Scan(lines)
    {
      var startAddress := 0;
      var count := 0;
      var i := 0;
      while i < |lines|
        invariant 0 <= i <= |lines|
        invariant ObjectProgram.Scan(lines[..i]) == Ok((startAddress, count))
      {
        var parts := Split(lines[i]);
        assert lines[..i + 1][..i] == lines[..i];
        if |parts| == 4 {
          var opcode := parts[2];
          var operand := parts[3];
          if opcode == "START" {
            var start := ParseHex(operand);
            if start.None? {
              ObjectProgram.ScanStop(lines, i + 1);
              return Err(InvalidLiteral(operand, 16));
            }
            startAddress := start.value;
          } else if opcode == "BYTE" {
            count := count + |operand| - 3;
          } else if opcode !in ["START", "END", "RESW", "RESB"] {
            count := count + 3;
          }
        }
        i := i + 1;
      }
      assert lines[..i] == lines;
      result := Ok((startAddress, count));
    }

    /** The second loop of `generate_object_code`: each instruction, WORD and BYTE line's code
        followed by "^", in order. */
    method TextRecord(lines: seq<string>) returns (result: Result<string, Error>)
      ensures match ObjectProgram.Fragments(optab, symtab, lines)
              case Err(e) => result == Err(e)
              case Ok(fragments) => result == Ok(ObjectProgram.Terminated(fragments))
    {
      var textRecord := "";
      ghost var fragments: seq<string> := [];
      var i := 0;
      while i < |lines|
        invariant 0 <= i <= |lines|
        invariant ObjectProgram.Fragments(optab, symtab, lines[..i]) == Ok(fragments)
        invariant textRecord == ObjectProgram.Terminated(fragments)
      {
        var parts := Split(lines[i]);
        assert lines[..i + 1][..i] == lines[..i];
        if |parts| != 4 {
          assert fragments + [] == fragments;
        } else {
          var opcode := parts[2];
          var operand := parts[3];
          if opcode in ["START", "END", "RESW", "RESB"] {
            assert fragments + [] == fragments;
          } else if opcode in optab {
            var objCode := optab[opcode];
            var bound := Lookup(symtab, operand);
            if bound.Some? {
              objCode := objCode + bound.value;
            } else {
              objCode := objCode + "0000";
            }
            assert objCode == PassTwo.InstructionCode(optab, symtab, opcode, operand);
            TerminatedAppend(fragments, objCode);
            textRecord := textRecord + objCode + "^";
            fragments := fragments + [objCode];
          } else if opcode == "WORD" {
            var n := ParseDecimal(operand);
            if n.None? {
              ObjectProgram.FragmentsStop(optab, symtab, lines, i + 1);
              return Err(InvalidLiteral(operand, 10));
            }
            TerminatedAppend(fragments, FormatHex(n.value, 6));
            textRecord := textRecord + FormatHex(n.value, 6) + "^";
            fragments := fragments + [FormatHex(n.value, 6)];
          } else if opcode == "BYTE" {
            var byteCode := ByteHex(PassTwo.LiteralText(operand));
            TerminatedAppend(fragments, byteCode);
            textRecord := textRecord + byteCode + "^";
            fragments := fragments + [byteCode];
          }
        }
        i := i + 1;
      }
      assert lines[..i] == lines;
      result := Ok(textRecord);
    }

    /** `get_intermediate_file`: the intermediate lines joined by newlines; it splits back into
        them when there is at least one and none holds a newline. */
    function GetIntermediateFile(): (text: string)
      reads this
      ensures (|intermediateFile| >= 1 && forall i :: 0 <= i < |intermediateFile| ==> '\n' !in intermediateFile[i])
          ==> SplitOn(text, '\n') == intermediateFile
    {
      SplitOnJoin(intermediateFile, '\n');
      Join("\n", intermediateFile)
    }

    /** `get_symtab`: one line `label\taddress\t0` per symbol, in insertion order. */
    function GetSymtab(): (text: string)
      reads this
      ensures var lines := Listing(symtab);
        (|lines| >= 1 && forall i :: 0 <= i < |lines| ==> '\n' !in lines[i]) ==> SplitOn(text, '\n') == lines
    {
      SplitOnJoin(Listing(symtab), '\n');
      Join("\n", Listing(symtab))
    }

    /** `get_output_file`. */
    function GetOutputFile(): (text: string)
      reads this
      ensures (|outputFile| >= 1 && forall i :: 0 <= i < |outputFile| ==> '\n' !in outputFile[i])
          ==> SplitOn(text, '\n') == outputFile
    {
      SplitOnJoin(outputFile, '\n');
      Join("\n", outputFile)
    }

    /** `get_object_code`. */
    function GetObjectCode(): (text: string)
      reads this
      ensures (|objectCode| >= 1 && forall i :: 0 <= i < |objectCode| ==> '\n' !in objectCode[i])
          ==> SplitOn(text, '\n') == objectCode
    {
      SplitOnJoin(objectCode, '\n');
      Join("\n", objectCode)
    }
  }

  /** The text record grows by one fragment and its "^". */
  lemma TerminatedAppend(fragments: seq<string>, fragment: string)
    ensures ObjectProgram.Terminated(fragments + [fragment]) == ObjectProgram.Terminated(fragments) + fragment + "^"
  {
    assert (fragments + [fragment])[..|fragments|] == fragments;
  }

  /** The four texts the GUI shows. */
  datatype Listings = Listings(intermediate: string, symbols: string, output: string, objectProgram: string)

  /** What one press of Generate produces: the four listings, or the exception that stopped it. */
  function Assemble(inputCode: string, optabText: string): Result<Listings, Error>
  {
    var optab := Optab.TableOf(SplitOn(optabText, '\n'));
    var first := PassOne.Pass1(Initial(optab), inputCode);
    if first.error.Some? then Err(first.error.value)
    else
      var second := ObjectProgram.Pass2(first.state);
      if second.error.Some? then Err(second.error.value)
      else
        var st := second.state;
        Ok(Listings(Join("\n", st.intermediateFile), Join("\n", Listing(st.symtab)),
                    Join("\n", st.outputFile), Join("\n", st.objectCode)))
  }

  /** `generate`, without the widgets: parse the table, construct the assembler, run pass 1 and
      pass 2, and read the four listings. */
  method Generate(inputCode: string, optabText: string) returns (result: Result<Listings, Error>)
    ensures result == Assemble(inputCode, optabText)
  {
    var optab := Optab.ParseOptab(optabText);
    var assembler := new Assembler(optab);
    var error := assembler.Pass1(inputCode);
    if error.Some? {
      return Err(error.value);
    }
    error := assembler.Pass2();
    if error.Some? {
      return Err(error.value);
    }
    result := Ok(Listings(assembler.GetIntermediateFile(), assembler.GetSymtab(),
                          assembler.GetOutputFile(), assembler.GetObjectCode()));
  }

  /** When Generate succeeds, the intermediate listing it shows splits back, line by line, into
      exactly the entries pass 1 recorded. Success needs at least one entry, because the object
      program reads `lines[-1]`. */
  lemma IntermediateListing(inputCode: string, optabText: string)
    ensures var optab := Optab.TableOf(SplitOn(optabText, '\n'));
      var entries := PassOne.Pass1(Initial(optab), inputCode).state.intermediateFile;
      Assemble(inputCode, optabText).Ok? ==>
        && |entries| >= 1
        && SplitOn(Assemble(inputCode, optabText).value.intermediate, '\n') == entries
  {
    var optab := Optab.TableOf(SplitOn(optabText, '\n'));
    var first := PassOne.Pass1(Initial(optab), inputCode);
    PassOne.Pass1Unbroken(Initial(optab), inputCode);
    ObjectProgram.Pass2Frame(first.state);
    PassTwo.OutputLines(first.state, first.state.intermediateFile);
    SplitOnJoin(first.state.intermediateFile, '\n');
  }

  /** When Generate succeeds and pass 1 bound any symbol, the symbol listing it shows splits back,
      line by line, into one `label\taddress\t0` line per symbol in insertion order, and each of
      those lines splits back into its label, its address and "0". */
  lemma SymbolListing(inputCode: string, optabText: string)
    ensures var optab := Optab.TableOf(SplitOn(optabText, '\n'));
      var symtab := PassOne.Pass1(Initial(optab), inputCode).state.symtab;
      Assemble(inputCode, optabText).Ok? ==>
        && (|symtab| >= 1 ==> SplitOn(Assemble(inputCode, optabText).value.symbols, '\n') == Listing(symtab))
        && forall i :: 0 <= i < |symtab| ==> Split(Listing(symtab)[i]) == [symtab[i].0, symtab[i].1, "0"]
  {
    var optab := Optab.TableOf(SplitOn(optabText, '\n'));
    var first := PassOne.Pass1(Initial(optab), inputCode);
    PassOne.Pass1Tokens(Initial(optab), inputCode);
    ListingTokens(first.state.symtab);
    ObjectProgram.Pass2Frame(first.state);
    SplitOnJoin(Listing(first.state.symtab), '\n');
  }
}

=== FILE: hex.dfy ===
/**
 * Python's integer reading and hexadecimal formatting as the assembler uses them:
 * `int(s)`, `int(s, 16)`, `hex(n)[2:]`, `f"{n:06X}"`, `format(n, '02X')` and
 * `format(ord(c), 'X')`. Integers are unbounded, as in Python.
 */
module Hex {
  import opened Wrappers

  predicate IsHexDigit(c: char)
  {
    '0' <= c <= '9' || 'a' <= c <= 'f' || 'A' <= c <= 'F'
  }

  function DigitValue(c: char): (v: nat)
    requires IsHexDigit(c)
    ensures v < 16
  {
    if '0' <= c <= '9' then c as int - '0' as int
    else if 'a' <= c <= 'f' then c as int - 'a' as int + 10
    else c as int - 'A' as int + 10
  }

  /** A digit as `format(n, 'X')` writes it. */
  predicate IsUpperDigit(c: char)
  {
    '0' <= c <= '9' || 'A' <= c <= 'F'
  }

  /** A digit as `hex()` writes it. */
  predicate IsLowerDigit(c: char)
  {
    '0' <= c <= '9' || 'a' <= c <= 'f'
  }

  /** A digit of the given base (10 or 16), upper or lower case. */
  predicate IsDigitOf(c: char, base: nat)
  {
    IsHexDigit(c) && DigitValue(c) < base
  }

  /** The digit character for `d`, lower case unless `upper`. */
  function DigitChar(d: nat, upper: bool): (c: char)
    requires d < 16
    ensures IsHexDigit(c) && DigitValue(c) == d
    ensures c != 'x' && c != 'X' && c != '-' && c != '+'
    ensures upper ==> IsUpperDigit(c)
  {
    if d < 10 then ('0' as int + d) as char
    else if upper then ('A' as int + d - 10) as char
    else ('a' as int + d - 10) as char
  }

  /** The hexadecimal digits of `n`, most significant first, without leading zeros. */
  function Digits(n: nat, upper: bool): (r: string)
    ensures |r| >= 1
    ensures forall i :: 0 <= i < |r| ==> IsHexDigit(r[i]) && r[i] != 'x' && r[i] != 'X' && r[i] != '-' && r[i] != '+'
    ensures upper ==> forall i :: 0 <= i < |r| ==> IsUpperDigit(r[i])
    ensures n > 0 ==> DigitValue(r[0]) != 0
  {
    if n < 16 then [DigitChar(n, upper)] else Digits(n / 16, upper) + [DigitChar(n % 16, upper)]
  }

  /** The value of a string of digits of `base`; None for an empty string or any other character. */
  function DigitsValue(s: string, base: nat): (r: Option<nat>)
    requires 2 <= base <= 16
    ensures r.Some? <==> |s| > 0 && forall i :: 0 <= i < |s| ==> IsDigitOf(s[i], base)
  {
    if |s| == 0 then None
    else
      var last := s[|s| - 1];
      if !IsDigitOf(last, base) then None
      else if |s| == 1 then Some(DigitValue(last))
      else
        match DigitsValue(s[..|s| - 1], base)
        case None => None
        case Some(v) => Some(Shift(v, base) + DigitValue(last))
  }

  /** The value of the digits read so far, moved up one place. */
  function Shift(v: nat, base: nat): nat
  {
    v * base
  }

  /** An optional leading sign, split off: (negative?, the rest). */
  function SplitSign(s: string): (bool, string)
  {
    if |s| > 0 && (s[0] == '-' || s[0] == '+') then (s[0] == '-', s[1..]) else (false, s)
  }

  /** A digit value with its sign applied; None stays None. */
  function Signed(negative: bool, v: Option<nat>): Option<int>
  {
    match v
    case None => None
    case Some(n) => Some(if negative then -(n as int) else n as int)
  }

  /** Python's `int(s)` on a token: an optional sign and decimal digits, or None (ValueError). */
  function ParseDecimal(s: string): Option<int>
  {
    var (negative, body) := SplitSign(s);
    Signed(negative, DigitsValue(body, 10))
  }

  /** The digits after an optional `0x`/`0X` prefix. */
  function HexBody(body: string): string
  {
    if |body| >= 2 && body[0] == '0' && (body[1] == 'x' || body[1] == 'X') then body[2..] else body
  }

  /** Python's `int(s, 16)` on a token: an optional sign, an optional `0x`/`0X`, hex digits. */
  function ParseHex(s: string): Option<int>
  {
    var (negative, body) := SplitSign(s);
    Signed(negative, DigitsValue(HexBody(body), 16))
  }

  /** Python's `hex(n)[2:]`: lower-case digits; a negative `n` gives "x" and the digits of `-n`. */
  function PyHex(n: int): string
  {
    if n >= 0 then Digits(n, false) else "x" + Digits(-n, false)
  }

  /** `hex()` writes lower-case digits. */
  lemma {:induction false} LowerDigits(n: nat)
    ensures forall i :: 0 <= i < |Digits(n, false)| ==> IsLowerDigit(Digits(n, false)[i])
  {
    if n >= 16 {
      LowerDigits(n / 16);
    }
  }

  /** `hex(n)[2:]` is lower-case digits for n >= 0, and "x" followed by lower-case digits for a
      negative n. */
  lemma PyHexLower(n: int)
    ensures var r := PyHex(n);
      && (n >= 0 ==> forall i :: 0 <= i < |r| ==> IsLowerDigit(r[i]))
      && (n < 0 ==> |r| >= 2 && r[0] == 'x' && forall i :: 1 <= i < |r| ==> IsLowerDigit(r[i]))
  {
    LowerDigits(if n >= 0 then n else -n);
  }

  function Zeros(k: nat): (r: string)
    ensures |r| == k && forall i :: 0 <= i < k ==> r[i] == '0'
  {
    if k == 0 then "" else Zeros(k - 1) + "0"
  }

  /** `s` left-padded with zeros to at least `width` characters. */
  function PadZeros(s: string, width: nat): (r: string)
    ensures |r| == if |s| < width then width else |s|
  {
    if |s| < width then Zeros(width - |s|) + s else s
  }

  /** Python's `format(n, '0<width>X')` (width 0: `format(n, 'X')`): upper-case digits, zero padded
      after the sign to `width` characters in all. */
  function FormatHex(n: int, width: nat): string
  {
    if n >= 0 then PadZeros(Digits(n, true), width)
    else "-" + PadZeros(Digits(-n, true), if width > 0 then width - 1 else 0)
  }

  /** The BYTE encoding of the text record: `''.join(format(ord(c), 'X') for c in s)`. */
  function ByteHex(s: string): string
  {
    if s == [] then "" else FormatHex(s[0] as int, 0) + ByteHex(s[1..])
  }

  /** Reads a string of two-digit hex codes back into characters (the inverse of ByteHex). */
  function ByteChars(h: string): Option<string>
  {
    if |h| == 0 then Some("")
    else if |h| == 1 || !IsHexDigit(h[0]) || !IsHexDigit(h[1]) then None
    else
      var code := DigitValue(h[0]) * 16 + DigitValue(h[1]);
      match ByteChars(h[2..])
      case None => None
      case Some(rest) => Some([code as char] + rest)
  }

  function Pow16(k: nat): (p: nat)
    ensures p >= 1
  {
    if k == 0 then 1 else 16 * Pow16(k - 1)
  }

  // ---------------------------------------------------------------- lemmas

  /** The digits of `n` read back as `n`, whatever their case. */
  lemma {:induction false} DigitsRoundTrip(n: nat, upper: bool)
    ensures DigitsValue(Digits(n, upper), 16) == Some(n)
    decreases n
  {
    var r := Digits(n, upper);
    if n >= 16 {
      DigitsRoundTrip(n / 16, upper);
      assert r[..|r| - 1] == Digits(n / 16, upper);
    }
  }

  /** Leading zeros do not change the value of a digit string. */
  lemma {:induction false} LeadingZeros(k: nat, s: string, base: nat)
    requires 2 <= base <= 16
    requires |s| > 0
    ensures DigitsValue(Zeros(k) + s, base) == DigitsValue(s, base)
    decreases |s|
  {
    var t := Zeros(k) + s;
    if |s| == 1 {
      if k > 0 && IsDigitOf(s[0], base) {
        var z := Zeros(k);
        assert t[..|t| - 1] == z;
        ZerosValue(k, base);
      }
    } else {
      assert t[..|t| - 1] == Zeros(k) + s[..|s| - 1];
      LeadingZeros(k, s[..|s| - 1], base);
    }
  }

  lemma {:induction false} ZerosValue(k: nat, base: nat)
    requires 2 <= base <= 16
    requires k > 0
    ensures DigitsValue(Zeros(k), base) == Some(0)
  {
    if k > 1 {
      ZerosValue(k - 1, base);
      assert Zeros(k)[..k - 1] == Zeros(k - 1);
    }
  }

  /** `int(hex(n)[2:], 16)` gives `n` back for every non-negative `n`, and fails for a negative one. */
  lemma PyHexRoundTrip(n: int)
    ensures ParseHex(PyHex(n)) == if n >= 0 then Some(n) else None
  {
    if n >= 0 {
      var d := Digits(n, false);
      DigitsRoundTrip(n, false);
      assert SplitSign(d) == (false, d);
    } else {
      var s := PyHex(n);
      assert s[0] == 'x' && !IsDigitOf(s[0], 16);
      assert SplitSign(s) == (false, s);
    }
  }

  /** Zero-padded digits still read back as the number, and contain no sign or `x`. */
  lemma PaddedDigits(m: nat, w: nat)
    ensures DigitsValue(PadZeros(Digits(m, true), w), 16) == Some(m)
    ensures forall i :: 0 <= i < |PadZeros(Digits(m, true), w)| ==>
      IsUpperDigit(PadZeros(Digits(m, true), w)[i])
  {
    var d := Digits(m, true);
    var p := PadZeros(d, w);
    DigitsRoundTrip(m, true);
    if |d| < w {
      LeadingZeros(w - |d|, d, 16);
      forall i | 0 <= i < |p| ensures IsUpperDigit(p[i]) {
        if i >= w - |d| { assert p[i] == d[i - (w - |d|)]; }
      }
    }
  }

  /** On a string of upper-case digits, with or without a minus sign, `int(s, 16)` is the digits' value. */
  lemma ParseUpperDigits(p: string, negative: bool)
    requires |p| > 0 && forall i :: 0 <= i < |p| ==> IsUpperDigit(p[i])
    ensures DigitsValue(p, 16).Some?
    ensures ParseHex(if negative then "-" + p else p)
         == Some(if negative then -(DigitsValue(p, 16).value as int) else DigitsValue(p, 16).value as int)
  {
    assert forall i :: 0 <= i < |p| ==> IsDigitOf(p[i], 16);
    assert p[0] != '-' && p[0] != '+';
    assert |p| >= 2 ==> p[1] != 'x' && p[1] != 'X';
    var s := if negative then "-" + p else p;
    assert SplitSign(s) == (negative, p) by {
      if negative { assert s[1..] == p; }
    }
    assert HexBody(p) == p;
    assert ParseHex(s) == Signed(negative, DigitsValue(p, 16));
  }

  /** `int(format(n, '0<w>X'), 16)` gives `n` back for every integer `n` and width `w`. */
  lemma FormatHexRoundTrip(n: int, width: nat)
    ensures ParseHex(FormatHex(n, width)) == Some(n)
  {
    var m: nat := if n >= 0 then n else -n;
    var w := if n >= 0 then width else if width > 0 then width - 1 else 0;
    var p := PadZeros(Digits(m, true), w);
    PaddedDigits(m, w);
    ParseUpperDigits(p, n < 0);
  }

  /** A value below 16^k has at most k digits, so `FormatHex(n, k)` is exactly k characters long. */
  lemma {:induction false} DigitsFit(n: nat, k: nat, upper: bool)
    requires k >= 1 && n < Pow16(k)
    ensures |Digits(n, upper)| <= k
    ensures |FormatHex(n, k)| == k
    decreases k
  {
    if n >= 16 {
      DigitsFit(n / 16, k - 1, upper);
      DigitsFit(n / 16, k - 1, true);
    }
    if n >= 16 || upper {
      assert |Digits(n, true)| <= k by {
        if n >= 16 { DigitsFit(n / 16, k - 1, true); }
      }
    }
  }

  /** Each character code between 0x10 and 0xFF is written with exactly two digits, so the BYTE
      encoding of such a string has two digits per character and reads back as the string. */
  lemma {:induction false} ByteHexRoundTrip(s: string)
    requires forall i :: 0 <= i < |s| ==> 16 <= s[i] as int < 256
    ensures |ByteHex(s)| == 2 * |s|
    ensures ByteChars(ByteHex(s)) == Some(s)
  {
    if s != [] {
      var c := s[0] as int;
      var d := Digits(c, true);
      assert d == Digits(c / 16, true) + [DigitChar(c % 16, true)];
      assert |d| == 2;
      assert FormatHex(c, 0) == d;
      DigitsRoundTrip(c, true);
      ByteHexRoundTrip(s[1..]);
      var h := ByteHex(s);
      assert h == d + ByteHex(s[1..]);
      assert h[..2] == d;
      assert h[2..] == ByteHex(s[1..]);
      assert (c as char) == s[0];
      assert [s[0]] + s[1..] == s;
    }
  }

  /** `C'EOF'`: the characters E, O, F are written 45, 4F, 46. */
  lemma ByteHexEof()
    ensures ByteHex("EOF") == "454F46"
  {
    assert Digits('E' as int, true) == "45";
    assert Digits('O' as int, true) == "4F";
    assert Digits('F' as int, true) == "46";
    assert ByteHex("F") == "46";
    assert ByteHex("OF") == "4F46";
  }
}

=== FILE: objprog.dfy ===
/**
 * Pass 2, second half: the object program writer. A first loop over the
 * four-field intermediate lines finds the start address and counts the bytes
 * of the text record; a second collects the text record's fragments. The
 * program is four lines: Header, Text header, the text body, End.
 */
module ObjectProgram {
  import opened Wrappers
  import opened Text
  import opened Hex
  import opened Symtab
  import opened AsmState
  import PassOne
  import PassTwo

  /** The opcodes that contribute no bytes to the text record. */
  predicate IsDirective(opcode: string)
  {
    opcode in ["START", "END", "RESW", "RESB"]
  }

  /** The first loop of `generate_object_code` over `lines`: the start address (the operand of the
      last START record, read as hex; 0 when there is none) and the byte count. */
  function Scan(lines: seq<string>): Result<(int, int), Error>
  {
    if |lines| == 0 then Ok((0, 0))
    else
      match Scan(lines[..|lines| - 1])
      case Err(e) => Err(e)
      case Ok((start, count)) =>
        var f := Split(lines[|lines| - 1]);
        if |f| != 4 then Ok((start, count))
        else if f[2] == "START" then
          match ParseHex(f[3])
          case None => Err(InvalidLiteral(f[3], 16))
          case Some(address) => Ok((address, count))
        else Ok((start, count + ByteCount(f[2], f[3])))
  }

  /** What a four-field line other than START adds to the byte count: the operand's length less 3
      for BYTE, 3 for anything that is not a directive (unrecognised opcodes included), else 0. */
  function ByteCount(opcode: string, operand: string): int
  {
    if opcode == "BYTE" then |operand| - 3
    else if !IsDirective(opcode) then 3
    else 0
  }

  /** What the second loop adds to the text record for one four-field line: nothing for a
      directive, else the instruction code, WORD's six hex digits, or BYTE's character codes. */
  function Fragment(optab: map<string, string>, symtab: Table, opcode: string, operand: string)
    : Result<seq<string>, Error>
  {
    if IsDirective(opcode) then Ok([])
    else if opcode in optab then Ok([PassTwo.InstructionCode(optab, symtab, opcode, operand)])
    else if opcode == "WORD" then
      match ParseDecimal(operand)
      case None => Err(InvalidLiteral(operand, 10))
      case Some(n) => Ok([FormatHex(n, 6)])
    else if opcode == "BYTE" then Ok([ByteHex(PassTwo.LiteralText(operand))])
    else Ok([])
  }

  /** The second loop over `lines`: the text record's fragments, in order. */
  function Fragments(optab: map<string, string>, symtab: Table, lines: seq<string>): Result<seq<string>, Error>
  {
    if |lines| == 0 then Ok([])
    else
      match Fragments(optab, symtab, lines[..|lines| - 1])
      case Err(e) => Err(e)
      case Ok(before) =>
        var f := Split(lines[|lines| - 1]);
        if |f| != 4 then Ok(before)
        else
          match Fragment(optab, symtab, f[2], f[3])
          case Err(e) => Err(e)
          case Ok(more) => Ok(before + more)
  }

  /** `text_record` as the loop builds it: every fragment followed by "^". */
  function Terminated(fragments: seq<string>): string
  {
    if |fragments| == 0 then ""
    else Terminated(fragments[..|fragments| - 1]) + fragments[|fragments| - 1] + "^"
  }

  function HeaderRecord(name: string, startText: string, length: int): string
  {
    "H^" + name + "^00" + startText + "^0000" + FormatHex(length, 6)
  }

  function TextHeader(startText: string, count: int): string
  {
    "T^00" + startText + "^" + FormatHex(count, 2) + "^"
  }

  function EndRecord(start: int): string
  {
    "E^00" + FormatHex(start, 6)
  }

  /** `generate_object_code`. The end address is the first field of the last intermediate line read
      as hex; the Header and Text header take fields 1 and 3 of the FIRST intermediate line. They are
      appended before the second loop runs, so a WORD that raises there leaves them in place. */
  function GenerateObjectCode(st: State): Run
  {
    var lines := st.intermediateFile;
    var scanned := Scan(lines);
    if scanned.Err? then Run(st, Some(scanned.error))
    else if |lines| == 0 then Run(st, Some(IndexOutOfRange))
    else
      var last := Split(lines[|lines| - 1]);
      if |last| == 0 then Run(st, Some(IndexOutOfRange))
      else
        var endAddress := ParseHex(last[0]);
        if endAddress.None? then Run(st, Some(InvalidLiteral(last[0], 16)))
        else
          var first := Split(lines[0]);
          if |first| < 4 then Run(st, Some(IndexOutOfRange))
          else WriteRecords(st, first, scanned.value.0, scanned.value.1, endAddress.value)
  }

  /** The records, once the start address, byte count and end address are known. */
  function WriteRecords(st: State, first: seq<string>, start: int, count: int, endAddress: int): Run
    requires |first| >= 4
  {
    var headers := st.(objectCode := st.objectCode
      + [HeaderRecord(first[1], first[3], endAddress - start), TextHeader(first[3], count)]);
    match Fragments(st.optab, st.symtab, st.intermediateFile)
    case Err(e) => Run(headers, Some(e))
    case Ok(fragments) =>
      Run(headers.(objectCode := headers.objectCode + [TrimEnd(Terminated(fragments), '^'), EndRecord(start)]), None)
  }

  /** `pass2`: the output file, then (unless that raised) the object program. */
  function Pass2(st: State): Run
  {
    var listed := PassTwo.GenerateOutputFile(st);
    if listed.error.Some? then listed else GenerateObjectCode(listed.state)
  }

  // ---------------------------------------------------------------- lemmas

  /** The text body is the fragments joined by "^" whenever the last fragment is non-empty and does
      not itself end in "^"; trailing separators left by empty fragments are all removed. */
  lemma {:induction false} TextBodyIsJoin(fragments: seq<string>)
    requires |fragments| >= 1
    ensures Terminated(fragments) == Join("^", fragments) + "^"
    ensures var last := fragments[|fragments| - 1];
      last != "" && last[|last| - 1] != '^' ==> TrimEnd(Terminated(fragments), '^') == Join("^", fragments)
  {
    var n := |fragments| - 1;
    if n == 0 {
      assert Join("^", fragments) == fragments[0];
      assert fragments[..0] == [];
    } else {
      TextBodyIsJoin(fragments[..n]);
      JoinAppend("^", fragments[..n], fragments[n]);
      assert fragments[..n] + [fragments[n]] == fragments;
    }
    var j := Join("^", fragments);
    var last := fragments[n];
    if last != "" && last[|last| - 1] != '^' {
      JoinEndsWith(fragments);
      assert (j + "^")[..|j + "^"| - 1] == j;
    }
  }

  lemma {:induction false} JoinEndsWith(parts: seq<string>)
    requires |parts| >= 1 && parts[|parts| - 1] != ""
    ensures var j := Join("^", parts); var last := parts[|parts| - 1];
      |j| >= 1 && j[|j| - 1] == last[|last| - 1]
  {
    if |parts| > 1 {
      JoinEndsWith(parts[1..]);
    }
  }

  /** The first loop stops at its first exception. */
  lemma {:induction false} ScanStop(lines: seq<string>, i: nat)
    requires i <= |lines|
    requires Scan(lines[..i]).Err?
    ensures Scan(lines) == Scan(lines[..i])
    decreases |lines| - i
  {
    if i < |lines| {
      assert lines[..i + 1][..i] == lines[..i];
      ScanStop(lines, i + 1);
    } else {
      assert lines[..i] == lines;
    }
  }

  /** A four-field intermediate line whose opcode is START. */
  predicate IsStartEntry(line: string)
  {
    var f := Split(line);
    |f| == 4 && f[2] == "START"
  }

  /** The start address the first loop finds is the operand of the last START entry, read as hex. */
  lemma {:induction false} ScanStart(lines: seq<string>, k: nat, a: int)
    requires k < |lines| && IsStartEntry(lines[k]) && ParseHex(Split(lines[k])[3]) == Some(a)
    requires forall j :: k < j < |lines| ==> !IsStartEntry(lines[j])
    requires Scan(lines).Ok?
    ensures Scan(lines).value.0 == a
  {
    var prefix := lines[..|lines| - 1];
    assert Scan(prefix).Ok?;
    if k < |lines| - 1 {
      assert prefix[k] == lines[k];
      forall j | k < j < |prefix| ensures !IsStartEntry(prefix[j]) {
        assert prefix[j] == lines[j];
      }
      ScanStart(prefix, k, a);
    }
  }

  /** Without a START entry the first loop cannot raise, and the start address stays 0. */
  lemma {:induction false} ScanNoStart(lines: seq<string>)
    requires forall j :: 0 <= j < |lines| ==> !IsStartEntry(lines[j])
    ensures Scan(lines).Ok? && Scan(lines).value.0 == 0
  {
    if |lines| > 0 {
      var prefix := lines[..|lines| - 1];
      forall j | 0 <= j < |prefix| ensures !IsStartEntry(prefix[j]) {
        assert prefix[j] == lines[j];
      }
      ScanNoStart(prefix);
    }
  }

  /** The second loop stops at its first exception. */
  lemma {:induction false} FragmentsStop(optab: map<string, string>, symtab: Table, lines: seq<string>, i: nat)
    requires i <= |lines|
    requires Fragments(optab, symtab, lines[..i]).Err?
    ensures Fragments(optab, symtab, lines) == Fragments(optab, symtab, lines[..i])
    decreases |lines| - i
  {
    if i < |lines| {
      assert lines[..i + 1][..i] == lines[..i];
      FragmentsStop(optab, symtab, lines, i + 1);
    } else {
      assert lines[..i] == lines;
    }
  }

  /** A four-field line whose byte count and text fragment agree: a directive (no bytes either way),
      BYTE outside the table with a literal of characters 0x10..0xFF, an instruction of the table
      with a two-digit prefix and a four-digit (or unbound) operand, or WORD outside the table with
      a value that fits six hex digits. An unrecognised opcode is counted as 3 bytes but writes none. */
  predicate WellSized(optab: map<string, string>, symtab: Table, entry: string)
  {
    var f := Split(entry);
    |f| == 4 ==>
      var opcode := f[2];
      var operand := f[3];
      if IsDirective(opcode) then true
      else if opcode == "BYTE" then
        opcode !in optab && |operand| >= 3
        && forall i :: 2 <= i < |operand| - 1 ==> 16 <= operand[i] as int < 256
      else if opcode in optab then
        |optab[opcode]| == 2 && (Lookup(symtab, operand).None? || |Lookup(symtab, operand).value| == 4)
      else
        opcode == "WORD" && ParseDecimal(operand).Some? && 0 <= ParseDecimal(operand).value < Pow16(6)
  }

  /** Total length of the fragments. */
  function HexLength(fragments: seq<string>): nat
  {
    if |fragments| == 0 then 0 else HexLength(fragments[..|fragments| - 1]) + |fragments[|fragments| - 1]|
  }

  /** When every four-field line is well sized, the Text header's byte count is exactly half the
      number of hex digits in the text body's fragments. */
  lemma {:induction false} ByteCountMatchesBody(optab: map<string, string>, symtab: Table, lines: seq<string>)
    requires forall i :: 0 <= i < |lines| ==> WellSized(optab, symtab, lines[i])
    requires Scan(lines).Ok? && Fragments(optab, symtab, lines).Ok?
    ensures 2 * Scan(lines).value.1 == HexLength(Fragments(optab, symtab, lines).value)
  {
    if |lines| > 0 {
      var k := |lines| - 1;
      ByteCountMatchesBody(optab, symtab, lines[..k]);
      var before := Fragments(optab, symtab, lines[..k]).value;
      var f := Split(lines[k]);
      if |f| == 4 {
        var more := Fragment(optab, symtab, f[2], f[3]).value;
        HexLengthAppend(before, more);
        FragmentSize(optab, symtab, lines[k]);
      }
    }
  }

  /** One well-sized line: its fragment has two hex digits per byte it is counted for. */
  lemma FragmentSize(optab: map<string, string>, symtab: Table, entry: string)
    requires WellSized(optab, symtab, entry)
    requires |Split(entry)| == 4
    requires var f := Split(entry); Fragment(optab, symtab, f[2], f[3]).Ok?
    ensures var f := Split(entry);
      var more := Fragment(optab, symtab, f[2], f[3]).value;
      |more| <= 1
      && (if |more| == 1 then |more[0]| else 0) == 2 * (if f[2] == "START" then 0 else ByteCount(f[2], f[3]))
  {
    var f := Split(entry);
    var opcode := f[2];
    var operand := f[3];
    if IsDirective(opcode) {
    } else if opcode == "BYTE" {
      var text := PassTwo.LiteralText(operand);
      assert forall i :: 0 <= i < |text| ==> text[i] == operand[i + 2];
      ByteHexRoundTrip(text);
    } else if opcode in optab {
    } else {
      DigitsFit(ParseDecimal(operand).value, 6, true);
    }
  }

  lemma {:induction false} HexLengthAppend(a: seq<string>, b: seq<string>)
    requires |b| <= 1
    ensures HexLength(a + b) == HexLength(a) + (if |b| == 1 then |b[0]| else 0)
  {
    if |b| == 1 {
      assert (a + b)[..|a + b| - 1] == a;
    } else {
      assert a + b == a;
    }
  }

  /** With no intermediate lines there is no program: `lines[-1]` raises and nothing is appended. */
  lemma EmptyProgram(st: State)
    requires st.intermediateFile == []
    ensures GenerateObjectCode(st) == Run(st, Some(IndexOutOfRange))
  {
  }

  /** When the last intermediate line is the START record, its address "-" is not hex: the program
      length cannot be computed and the writer raises, appending nothing. */
  lemma StartRecordLast(st: State)
    requires Scan(st.intermediateFile).Ok?
    requires |st.intermediateFile| > 0
    requires var last := Split(st.intermediateFile[|st.intermediateFile| - 1]); |last| > 0 && last[0] == "-"
    ensures GenerateObjectCode(st) == Run(st, Some(InvalidLiteral("-", 16)))
  {
    var d := "-";
    assert SplitSign(d) == (true, "");
  }

  /** The object program when nothing raises: Header, Text header, text body and End are appended
      and nothing else changes; the Header's length is the end address less the start address,
      and the End record's address, read as hex, is the start address. */
  lemma Records(st: State, start: int, count: int, endAddress: int, fragments: seq<string>)
    requires var lines := st.intermediateFile;
      && |lines| > 0
      && |Split(lines[0])| >= 4
      && Scan(lines) == Ok((start, count))
      && Fragments(st.optab, st.symtab, lines) == Ok(fragments)
      && |Split(lines[|lines| - 1])| > 0
      && ParseHex(Split(lines[|lines| - 1])[0]) == Some(endAddress)
    ensures
      var first := Split(st.intermediateFile[0]);
      var r := GenerateObjectCode(st);
      && r.error.None?
      && r.state.(objectCode := st.objectCode) == st
      && r.state.objectCode == st.objectCode + [
           HeaderRecord(first[1], first[3], endAddress - start),
           TextHeader(first[3], count),
           TrimEnd(Terminated(fragments), '^'),
           EndRecord(start)]
      && ParseHex(r.state.objectCode[|st.objectCode| + 3][4..]) == Some(start)
  {
    var first := Split(st.intermediateFile[0]);
    GenerateWrites(st, endAddress);
    RecordsWritten(st, first, start, count, endAddress);
    FormatHexRoundTrip(start, 6);
    assert EndRecord(start)[4..] == FormatHex(start, 6);
  }

  /** Once the checks pass, `generate_object_code` is the record writing. */
  lemma GenerateWrites(st: State, endAddress: int)
    requires var lines := st.intermediateFile;
      && |lines| > 0
      && |Split(lines[0])| >= 4
      && Scan(lines).Ok?
      && |Split(lines[|lines| - 1])| > 0
      && ParseHex(Split(lines[|lines| - 1])[0]) == Some(endAddress)
    ensures var lines := st.intermediateFile;
      GenerateObjectCode(st)
      == WriteRecords(st, Split(lines[0]), Scan(lines).value.0, Scan(lines).value.1, endAddress)
  {
  }

  /** Without a raising WORD, the record writing appends the four records and nothing else. */
  lemma RecordsWritten(st: State, first: seq<string>, start: int, count: int, endAddress: int)
    requires |first| >= 4 && Fragments(st.optab, st.symtab, st.intermediateFile).Ok?
    ensures
      var fragments := Fragments(st.optab, st.symtab, st.intermediateFile).value;
      var r := WriteRecords(st, first, start, count, endAddress);
      && r.error.None?
      && r.state.(objectCode := st.objectCode) == st
      && r.state.objectCode == st.objectCode + [
           HeaderRecord(first[1], first[3], endAddress - start),
           TextHeader(first[3], count),
           TrimEnd(Terminated(fragments), '^'),
           EndRecord(start)]
  {
    var header := HeaderRecord(first[1], first[3], endAddress - start);
    var textHeader := TextHeader(first[3], count);
    assert st.objectCode + [header, textHeader] + [TrimEnd(Terminated(Fragments(st.optab, st.symtab, st.intermediateFile).value), '^'), EndRecord(start)]
        == st.objectCode + [header, textHeader, TrimEnd(Terminated(Fragments(st.optab, st.symtab, st.intermediateFile).value), '^'), EndRecord(start)];
  }

  /** When pass 1 ends on an operation line, the end address the writer reads from the last
      intermediate line is the location counter pass 1 held at that line; `int(…, 16)` raises when
      that counter was negative. */
  lemma EndAddressIsLastLocation(st: State, lines: seq<string>)
    requires |lines| > 0 && PassOne.Lines(st, lines).error.None?
    requires var parts := Split(lines[|lines| - 1]);
      (|parts| == 2 || |parts| == 3) && !PassOne.IsStartLine(parts)
    ensures
      var location := PassOne.Lines(st, lines[..|lines| - 1]).state.locctr;
      var entries := PassOne.Lines(st, lines).state.intermediateFile;
      && |entries| > 0
      && |Split(entries[|entries| - 1])| > 0
      && ParseHex(Split(entries[|entries| - 1])[0]) == if location >= 0 then Some(location) else None
  {
    PassOne.LinesLast(st, lines);
    var before := PassOne.Lines(st, lines[..|lines| - 1]).state;
    PassOne.OperationLineRecords(before, lines[|lines| - 1]);
    PyHexRoundTrip(before.locctr);
  }

  /** Pass 2 writes only the output file and the object program: the tables, the intermediate
      file and the location counter are as pass 1 left them, whether or not it raises. */
  lemma Pass2Frame(st: State)
    ensures var r := Pass2(st).state;
      r.(outputFile := st.outputFile, objectCode := st.objectCode) == st
  {
    PassTwo.OutputLines(st, st.intermediateFile);
  }
}

=== FILE: optab.dfy ===
/**
 * The operation table: built from configuration text whose lines read
 * `MNEMONIC PREFIX`. A line counts only when it splits into exactly two
 * whitespace-separated tokens; a mnemonic given twice keeps its last prefix.
 */
module Optab {
  import opened Text

  /** True when `line` splits into exactly two tokens, the first being `mnemonic`. */
  predicate Defines(line: string, mnemonic: string)
  {
    var parts := Split(line);
    |parts| == 2 && parts[0] == mnemonic
  }

  /** The table the loop has built after reading `lines`, in order. */
  function TableOf(lines: seq<string>): map<string, string>
  {
    if |lines| == 0 then map[]
    else
      var table := TableOf(lines[..|lines| - 1]);
      var parts := Split(lines[|lines| - 1]);
      if |parts| == 2 then table[parts[0] := parts[1]] else table
  }

  /** The opcode-table parser: one pass over the lines of the text, filling a map. */
  method ParseOptab(optabText: string) returns (optab: map<string, string>)
    ensures optab == TableOf(SplitOn(optabText, '\n'))
  {
    optab := map[];
    var lines := SplitOn(optabText, '\n');
    var i := 0;
    while i < |lines|
      invariant 0 <= i <= |lines|
      invariant optab == TableOf(lines[..i])
    {
      var parts := Split(lines[i]);
      if |parts| == 2 {
        optab := optab[parts[0] := parts[1]];
      }
      assert lines[..i + 1][..i] == lines[..i];
      i := i + 1;
    }
    assert lines[..i] == lines;
  }

  /** A mnemonic is in the table exactly when some two-token line defines it. */
  lemma {:induction false} TableOfKeys(lines: seq<string>, mnemonic: string)
    ensures mnemonic in TableOf(lines) <==> exists i :: 0 <= i < |lines| && Defines(lines[i], mnemonic)
  {
    if |lines| > 0 {
      var n := |lines| - 1;
      var prefix := lines[..n];
      TableOfKeys(prefix, mnemonic);
      assert forall i :: 0 <= i < n ==> prefix[i] == lines[i];
    }
  }

  /** A mnemonic maps to the second token of the LAST line that defines it. */
  lemma {:induction false} TableOfLast(lines: seq<string>, mnemonic: string, i: nat)
    requires i < |lines| && Defines(lines[i], mnemonic)
    requires forall j :: i < j < |lines| ==> !Defines(lines[j], mnemonic)
    ensures mnemonic in TableOf(lines) && TableOf(lines)[mnemonic] == Split(lines[i])[1]
  {
    var n := |lines| - 1;
    var prefix := lines[..n];
    if i < n {
      assert forall j :: i < j < n ==> prefix[j] == lines[j];
      TableOfLast(prefix, mnemonic, i);
      assert prefix[i] == lines[i];
    }
  }

  /** There are no more keys than two-token lines, and exactly as many when no mnemonic is
      defined twice. */
  lemma {:induction false} TableOfSize(lines: seq<string>)
    ensures |TableOf(lines)| <= TwoTokenLines(lines)
    ensures DistinctMnemonics(lines) ==> |TableOf(lines)| == TwoTokenLines(lines)
  {
    if |lines| > 0 {
      var n := |lines| - 1;
      var prefix := lines[..n];
      TableOfSize(prefix);
      var parts := Split(lines[n]);
      if |parts| == 2 {
        var t := TableOf(prefix);
        assert t[parts[0] := parts[1]].Keys == t.Keys + {parts[0]};
        if DistinctMnemonics(lines) {
          assert DistinctMnemonics(prefix) by {
            assert forall i :: 0 <= i < n ==> prefix[i] == lines[i];
          }
          forall i | 0 <= i < n
            ensures !Defines(prefix[i], parts[0])
          {
            assert prefix[i] == lines[i];
          }
          TableOfKeys(prefix, parts[0]);
          assert parts[0] !in t;
        }
      } else if DistinctMnemonics(lines) {
        assert DistinctMnemonics(prefix) by {
          assert forall i :: 0 <= i < n ==> prefix[i] == lines[i];
        }
      }
    }
  }

  /** No two two-token lines define the same mnemonic. */
  predicate DistinctMnemonics(lines: seq<string>)
  {
    forall i, j :: 0 <= i < j < |lines| && |Split(lines[i])| == 2 && |Split(lines[j])| == 2
      ==> Split(lines[i])[0] != Split(lines[j])[0]
  }

  /** How many lines split into exactly two tokens. */
  function TwoTokenLines(lines: seq<string>): nat
  {
    if |lines| == 0 then 0
    else TwoTokenLines(lines[..|lines| - 1]) + (if |Split(lines[|lines| - 1])| == 2 then 1 else 0)
  }
}

=== FILE: pass1.dfy ===
/**
 * Pass 1: walk the source lines with a location counter, bind labels in the
 * symbol table and write one tab-separated intermediate line per accepted line.
 */
module PassOne {
  import opened Wrappers
  import opened Text
  import opened Hex
  import opened Symtab
  import opened AsmState

  /** A line of three tokens whose second token is START. */
  predicate IsStartLine(parts: seq<string>)
  {
    |parts| == 3 && parts[1] == "START"
  }

  /** How far an operation line moves the location counter; `int(operand)` can raise. */
  function Advance(optab: map<string, string>, opcode: string, operand: string): Result<int, Error>
  {
    if opcode in optab then Ok(3)
    else if opcode == "WORD" then Ok(3)
    else if opcode == "RESW" then
      match ParseDecimal(operand)
      case None => Err(InvalidLiteral(operand, 10))
      case Some(n) => Ok(3 * n)
    else if opcode == "RESB" then
      match ParseDecimal(operand)
      case None => Err(InvalidLiteral(operand, 10))
      case Some(n) => Ok(n)
    else if opcode == "BYTE" then Ok(|operand| - 3)
    else Ok(0)
  }

  /** The intermediate line of an operation line: address, label, opcode and operand, tab separated. */
  function Entry(address: string, symbol: string, opcode: string, operand: string): string
  {
    address + "\t" + symbol + "\t" + opcode + "\t" + operand
  }

  /** `process_line_pass1`: bind the label (unless it is "-"), record the intermediate line, then
      advance the location counter. The binding and the line are already made when `int()` raises. */
  function ProcessLine(st: State, parts: seq<string>): Run
    requires |parts| == 2 || |parts| == 3
  {
    var symbol := parts[0];
    var opcode := parts[1];
    var operand := if |parts| == 3 then parts[2] else "";
    var address := PyHex(st.locctr);
    var recorded := st.(
      symtab := if symbol != "-" then Upsert(st.symtab, symbol, address) else st.symtab,
      intermediateFile := st.intermediateFile + [Entry(address, symbol, opcode, operand)]);
    match Advance(st.optab, opcode, operand)
    case Ok(n) => Run(recorded.(locctr := st.locctr + n), None)
    case Err(e) => Run(recorded, Some(e))
  }

  /** One iteration of `pass1`'s loop. A START line sets the location counter to its operand read
      as hex and records "-\t" followed by the line itself; no symbol is bound. */
  function Line(st: State, line: string): Run
  {
    var parts := Split(line);
    if IsStartLine(parts) then
      match ParseHex(parts[2])
      case None => Run(st, Some(InvalidLiteral(parts[2], 16)))
      case Some(start) => Run(st.(locctr := start, intermediateFile := st.intermediateFile + ["-\t" + line]), None)
    else if |parts| == 2 || |parts| == 3 then ProcessLine(st, parts)
    else Run(st, None)
  }

  /** `pass1`'s loop over `lines`, stopping at the first exception. */
  function Lines(st: State, lines: seq<string>): Run
  {
    if |lines| == 0 then Run(st, None)
    else
      var before := Lines(st, lines[..|lines| - 1]);
      if before.error.Some? then before else Line(before.state, lines[|lines| - 1])
  }

  /** `pass1(input_code)`. */
  function Pass1(st: State, inputCode: string): Run
  {
    Lines(st, SplitOn(inputCode, '\n'))
  }

  // ---------------------------------------------------------------- what pass 1 records

  /** The lines pass 1 records: those that split into two or three tokens. */
  function Processed(lines: seq<string>): (r: seq<string>)
    ensures |r| <= |lines|
  {
    if |lines| == 0 then []
    else
      var parts := Split(lines[|lines| - 1]);
      Processed(lines[..|lines| - 1]) + (if |parts| == 2 || |parts| == 3 then [lines[|lines| - 1]] else [])
  }

  /** `entry` is the intermediate line recorded for source line `line`: its fields are an address
      followed by the line's own tokens, and the address is "-" exactly for a START line. */
  predicate RecordedFor(entry: string, line: string)
  {
    var fields := Split(entry);
    |fields| >= 1 && fields[1..] == Split(line) && (fields[0] == "-" <==> IsStartLine(Split(line)))
  }

  /** The address pass 1 writes is a single token, and never the placeholder "-". */
  lemma PyHexIsToken(n: int)
    ensures IsToken(PyHex(n)) && PyHex(n) != "-"
  {
    var d := Digits(if n >= 0 then n else -n, false);
    assert forall i :: 0 <= i < |d| ==> !IsSpace(d[i]);
    if n < 0 {
      assert PyHex(n) == "x" + d;
      assert forall i :: 1 <= i < |PyHex(n)| ==> PyHex(n)[i] == d[i - 1];
    }
  }

  /** An operation line appends exactly one intermediate line, which splits back into the current
      address followed by the line's own tokens; the other tables are untouched. */
  lemma OperationLineRecords(st: State, line: string)
    requires |Split(line)| == 2 || |Split(line)| == 3
    requires !IsStartLine(Split(line))
    ensures
      var r := Line(st, line).state;
      && r.optab == st.optab && r.outputFile == st.outputFile && r.objectCode == st.objectCode
      && |r.intermediateFile| == |st.intermediateFile| + 1
      && r.intermediateFile[..|st.intermediateFile|] == st.intermediateFile
      && Split(r.intermediateFile[|st.intermediateFile|]) == [PyHex(st.locctr)] + Split(line)
  {
    var parts := Split(line);
    var operand := if |parts| == 3 then parts[2] else "";
    var entry := Entry(PyHex(st.locctr), parts[0], parts[1], operand);
    ProcessLineRecords(st, parts);
    assert Line(st, line) == ProcessLine(st, parts);
    PyHexIsToken(st.locctr);
    EntryFields(PyHex(st.locctr), parts);
  }

  /** What `process_line_pass1` records, whether or not it raises afterwards. */
  lemma ProcessLineRecords(st: State, parts: seq<string>)
    requires |parts| == 2 || |parts| == 3
    ensures
      var r := ProcessLine(st, parts).state;
      var operand := if |parts| == 3 then parts[2] else "";
      && r.optab == st.optab && r.outputFile == st.outputFile && r.objectCode == st.objectCode
      && r.intermediateFile == st.intermediateFile + [Entry(PyHex(st.locctr), parts[0], parts[1], operand)]
      && r.symtab == if parts[0] != "-" then Upsert(st.symtab, parts[0], PyHex(st.locctr)) else st.symtab
  {
  }

  /** The intermediate line of an operation line splits back into the address and the line's tokens. */
  lemma EntryFields(address: string, parts: seq<string>)
    requires |parts| == 2 || |parts| == 3
    requires IsToken(address)
    requires forall i :: 0 <= i < |parts| ==> IsToken(parts[i])
    ensures Split(Entry(address, parts[0], parts[1], if |parts| == 3 then parts[2] else ""))
         == [address] + parts
  {
    var operand := if |parts| == 3 then parts[2] else "";
    SplitFourFields(address, parts[0], parts[1], operand);
    TabNested(address, parts[0], parts[1], operand);
    assert parts == [parts[0], parts[1]] + (if operand == [] then [] else [operand]);
  }

  /** An operation line binds its label (unless it is "-") to the current address, overwriting any
      earlier binding, and leaves every other label as it was. */
  lemma OperationLineBinds(st: State, line: string)
    requires |Split(line)| == 2 || |Split(line)| == 3
    requires !IsStartLine(Split(line))
    ensures
      var symbol := Split(line)[0];
      var r := Line(st, line).state;
      && (symbol != "-" ==> Lookup(r.symtab, symbol) == Some(PyHex(st.locctr)))
      && (symbol == "-" ==> r.symtab == st.symtab)
      && (forall other :: other != symbol ==> Lookup(r.symtab, other) == Lookup(st.symtab, other))
  {
    var parts := Split(line);
    var r := Line(st, line).state;
    if parts[0] != "-" {
      assert r.symtab == Upsert(st.symtab, parts[0], PyHex(st.locctr));
      forall other | other != parts[0]
        ensures Lookup(r.symtab, other) == Lookup(st.symtab, other)
      {
        LookupUpsert(st.symtab, parts[0], PyHex(st.locctr), other);
      }
      LookupUpsert(st.symtab, parts[0], PyHex(st.locctr), parts[0]);
    }
  }

  /** After an operation line the location counter has advanced by 3 for an opcode of the table or
      WORD, by 3n for RESW n, by n for RESB n, by the operand's length less 3 for BYTE, and by 0 for
      anything else; RESW and RESB with a non-numeric operand raise and leave it where it was. */
  lemma OperationLineAdvances(st: State, line: string)
    requires |Split(line)| == 2 || |Split(line)| == 3
    requires !IsStartLine(Split(line))
    ensures
      var parts := Split(line);
      var opcode := parts[1];
      var operand := if |parts| == 3 then parts[2] else "";
      var r := Line(st, line);
      && (r.error.Some? <==> opcode !in st.optab && (opcode == "RESW" || opcode == "RESB")
                               && ParseDecimal(operand).None?)
      && (r.error.Some? ==> r.state.locctr == st.locctr)
      && (opcode in st.optab || opcode == "WORD" ==> r.state.locctr == st.locctr + 3)
      && (opcode !in st.optab && opcode == "RESW" && ParseDecimal(operand).Some? ==>
            r.state.locctr == st.locctr + 3 * ParseDecimal(operand).value)
      && (opcode !in st.optab && opcode == "RESB" && ParseDecimal(operand).Some? ==>
            r.state.locctr == st.locctr + ParseDecimal(operand).value)
      && (opcode !in st.optab && opcode == "BYTE" ==> r.state.locctr == st.locctr + |operand| - 3)
      && (opcode !in st.optab && opcode !in ["WORD", "RESW", "RESB", "BYTE"] ==> r.state.locctr == st.locctr)
  {
  }

  /** A START line sets the location counter to its operand read as hex (raising, with nothing
      changed, when it is not hex), leaves the symbol table alone and appends "-\t" + line, which splits into "-" and the line's
      three tokens. */
  lemma StartLine(st: State, line: string)
    requires IsStartLine(Split(line))
    ensures
      var r := Line(st, line);
      var operand := Split(line)[2];
      && r.state.symtab == st.symtab && r.state.optab == st.optab
      && r.state.outputFile == st.outputFile && r.state.objectCode == st.objectCode
      && (r.error.Some? <==> ParseHex(operand).None?)
      && (r.error.Some? ==> r.state == st)
      && (r.error.None? ==>
            && r.state.locctr == ParseHex(operand).value
            && |r.state.intermediateFile| == |st.intermediateFile| + 1
            && r.state.intermediateFile[..|st.intermediateFile|] == st.intermediateFile
            && Split(r.state.intermediateFile[|st.intermediateFile|]) == ["-"] + Split(line))
  {
    assert IsToken("-");
    SplitTabPrefixed("-", line);
    assert "-\t" + line == "-" + "\t" + line;
  }

  /** `after` is `before` with the record of `line` appended when the line has two or three
      tokens, and `before` unchanged otherwise. */
  predicate RecordsLine(before: seq<string>, after: seq<string>, line: string)
  {
    var parts := Split(line);
    if |parts| == 2 || |parts| == 3 then
      |after| == |before| + 1 && after[..|before|] == before && RecordedFor(after[|before|], line)
    else after == before
  }

  /** A line of neither two nor three tokens (a blank line among them) changes nothing at all. */
  lemma SkippedLine(st: State, line: string)
    requires |Split(line)| != 2 && |Split(line)| != 3
    ensures Line(st, line) == Run(st, None)
  {
  }

  /** One line of pass 1 without an exception records the line when it has two or three tokens,
      and nothing otherwise; the operation table and the pass 2 outputs stay as they were. */
  lemma LineRecords(st: State, line: string)
    requires Line(st, line).error.None?
    ensures
      var r := Line(st, line).state;
      && r.optab == st.optab && r.outputFile == st.outputFile && r.objectCode == st.objectCode
      && RecordsLine(st.intermediateFile, r.intermediateFile, line)
  {
    var parts := Split(line);
    if IsStartLine(parts) {
      StartLine(st, line);
    } else if |parts| == 2 || |parts| == 3 {
      OperationLineRecords(st, line);
      PyHexIsToken(st.locctr);
    }
  }

  /** Every accepted line, in order, gets exactly one intermediate line recorded for it, and
      nothing else is appended. */
  lemma Entries(st: State, lines: seq<string>)
    requires Lines(st, lines).error.None?
    ensures
      var r := Lines(st, lines).state;
      var n := |st.intermediateFile|;
      && r.optab == st.optab && r.outputFile == st.outputFile && r.objectCode == st.objectCode
      && |r.intermediateFile| == n + |Processed(lines)|
      && r.intermediateFile[..n] == st.intermediateFile
      && forall j :: 0 <= j < |Processed(lines)| ==> RecordedFor(r.intermediateFile[n + j], Processed(lines)[j])
  {
    EntriesHold(st, lines);
  }

  /** The operation table and the pass 2 outputs are those of `st`. */
  predicate Kept(st: State, r: State)
  {
    r.optab == st.optab && r.outputFile == st.outputFile && r.objectCode == st.objectCode
  }

  /** `entries` is `initial` followed by one record per accepted line of `lines`, in order. */
  predicate Appended(initial: seq<string>, entries: seq<string>, lines: seq<string>)
  {
    && |entries| == |initial| + |Processed(lines)|
    && entries[..|initial|] == initial
    && forall j :: 0 <= j < |Processed(lines)| ==> RecordedFor(entries[|initial| + j], Processed(lines)[j])
  }

  lemma {:induction false} EntriesHold(st: State, lines: seq<string>)
    requires Lines(st, lines).error.None?
    ensures Kept(st, Lines(st, lines).state)
    ensures Appended(st.intermediateFile, Lines(st, lines).state.intermediateFile, lines)
  {
    if |lines| > 0 {
      var k := |lines| - 1;
      LinesLast(st, lines);
      var before := Lines(st, lines[..k]).state;
      EntriesHold(st, lines[..k]);
      LineRecords(before, lines[k]);
      EntriesStep(st, before, Lines(st, lines).state, lines);
    }
  }

  /** The last line keeps the facts `EntriesHold` states for the lines before it. */
  lemma EntriesStep(st: State, before: State, after: State, lines: seq<string>)
    requires |lines| > 0
    requires Kept(st, before) && Appended(st.intermediateFile, before.intermediateFile, lines[..|lines| - 1])
    requires after.optab == before.optab && after.outputFile == before.outputFile && after.objectCode == before.objectCode
    requires RecordsLine(before.intermediateFile, after.intermediateFile, lines[|lines| - 1])
    ensures Kept(st, after) && Appended(st.intermediateFile, after.intermediateFile, lines)
  {
    var line := lines[|lines| - 1];
    var prefix := Processed(lines[..|lines| - 1]);
    var n := |st.intermediateFile|;
    if |Split(line)| == 2 || |Split(line)| == 3 {
      assert Processed(lines) == prefix + [line];
      RecordedExtend(n, before.intermediateFile, after.intermediateFile, prefix, line);
      assert after.intermediateFile[..n] == before.intermediateFile[..n];
    } else {
      assert Processed(lines) == prefix;
    }
  }

  /** Appending the record of one more line keeps every earlier record in its place. */
  lemma RecordedExtend(n: nat, before: seq<string>, after: seq<string>, processed: seq<string>, line: string)
    requires |before| == n + |processed|
    requires |after| == |before| + 1 && after[..|before|] == before
    requires forall j :: 0 <= j < |processed| ==> RecordedFor(before[n + j], processed[j])
    requires RecordedFor(after[|before|], line)
    ensures forall j :: 0 <= j < |processed| + 1 ==> RecordedFor(after[n + j], (processed + [line])[j])
  {
    forall j | 0 <= j < |processed| + 1
      ensures RecordedFor(after[n + j], (processed + [line])[j])
    {
      if j < |processed| {
        assert after[n + j] == before[n + j];
      }
    }
  }

  /** A run of pass 1 that raises nothing ran every line before the last without raising. */
  lemma LinesLast(st: State, lines: seq<string>)
    requires |lines| > 0 && Lines(st, lines).error.None?
    ensures var before := Lines(st, lines[..|lines| - 1]);
      before.error.None? && Lines(st, lines) == Line(before.state, lines[|lines| - 1])
  {
  }

  /** Pass 1 stops at its first exception: later lines change nothing. */
  lemma {:induction false} LinesStop(st: State, lines: seq<string>, i: nat)
    requires i <= |lines|
    requires Lines(st, lines[..i]).error.Some?
    ensures Lines(st, lines) == Lines(st, lines[..i])
    decreases |lines| - i
  {
    if i < |lines| {
      assert lines[..i + 1][..i] == lines[..i];
      LinesStop(st, lines, i + 1);
    } else {
      assert lines[..i] == lines;
    }
  }

  // ---------------------------------------------------------------- symbol table invariant

  /** `entry` binds `symbol`: it is an operation line's record (its address is not "-") whose label
      field is `symbol`, and `symbol` is not the placeholder "-". */
  predicate Binds(entry: string, symbol: string)
  {
    var fields := Split(entry);
    |fields| >= 2 && fields[0] != "-" && fields[1] == symbol && symbol != "-"
  }

  /** The address of the last intermediate line that binds `symbol`. */
  function LastDefinition(entries: seq<string>, symbol: string): (r: Option<string>)
    ensures r.Some? ==> exists i :: 0 <= i < |entries| && Binds(entries[i], symbol) && Split(entries[i])[0] == r.value
  {
    if |entries| == 0 then None
    else if Binds(entries[|entries| - 1], symbol) then Some(Split(entries[|entries| - 1])[0])
    else LastDefinition(entries[..|entries| - 1], symbol)
  }

  /** The symbol table is a dict, and each label in it holds the address of its last definition in
      the intermediate file. */
  ghost predicate SymtabAgrees(st: State)
  {
    && UniqueLabels(st.symtab)
    && forall symbol :: Lookup(st.symtab, symbol) == LastDefinition(st.intermediateFile, symbol)
  }

  lemma InitialAgrees(optab: map<string, string>)
    ensures SymtabAgrees(Initial(optab))
  {
  }

  /** One line of pass 1 keeps the symbol table in agreement with the intermediate file, whether
      or not it raises. */
  lemma LineAgrees(st: State, line: string)
    requires SymtabAgrees(st)
    ensures SymtabAgrees(Line(st, line).state)
  {
    var parts := Split(line);
    var r := Line(st, line).state;
    if IsStartLine(parts) {
      StartLine(st, line);
      if r != st {
        var e := r.intermediateFile[|st.intermediateFile|];
        assert r.intermediateFile == st.intermediateFile + [e];
        assert r.intermediateFile[..|st.intermediateFile|] == st.intermediateFile;
        forall symbol ensures Lookup(r.symtab, symbol) == LastDefinition(r.intermediateFile, symbol) {
          assert !Binds(e, symbol);
        }
      }
    } else if |parts| == 2 || |parts| == 3 {
      OperationLineRecords(st, line);
      OperationLineBinds(st, line);
      var e := r.intermediateFile[|st.intermediateFile|];
      assert r.intermediateFile == st.intermediateFile + [e];
      PyHexIsToken(st.locctr);
      if parts[0] != "-" {
        UpsertOrder(st.symtab, parts[0], PyHex(st.locctr));
      }
      forall symbol ensures Lookup(r.symtab, symbol) == LastDefinition(r.intermediateFile, symbol) {
        assert Binds(e, symbol) <==> symbol == parts[0] && symbol != "-";
      }
    }
  }

  /** Pass 1 keeps the symbol table in agreement with the intermediate file: after it, every label
      maps to the address of its last definition, whichever line raised. */
  lemma {:induction false} LinesAgree(st: State, lines: seq<string>)
    requires SymtabAgrees(st)
    ensures SymtabAgrees(Lines(st, lines).state)
  {
    if |lines| > 0 {
      LinesAgree(st, lines[..|lines| - 1]);
      var before := Lines(st, lines[..|lines| - 1]);
      if before.error.None? {
        LineAgrees(before.state, lines[|lines| - 1]);
      }
    }
  }

  // ---------------------------------------------------------------- symbol-table tokens

  /** One line of pass 1, whether or not it raises, keeps every label and address of the symbol
      table a token. */
  lemma LineTokens(st: State, line: string)
    requires Tokens(st.symtab)
    ensures Tokens(Line(st, line).state.symtab)
  {
    var parts := Split(line);
    if !IsStartLine(parts) && (|parts| == 2 || |parts| == 3) {
      ProcessLineRecords(st, parts);
      PyHexIsToken(st.locctr);
      if parts[0] != "-" {
        UpsertTokens(st.symtab, parts[0], PyHex(st.locctr));
      }
    }
  }

  /** Pass 1 keeps every label and every address of the symbol table a token. */
  lemma {:induction false} LinesTokens(st: State, lines: seq<string>)
    requires Tokens(st.symtab)
    ensures Tokens(Lines(st, lines).state.symtab)
  {
    if |lines| > 0 {
      LinesTokens(st, lines[..|lines| - 1]);
      var before := Lines(st, lines[..|lines| - 1]);
      if before.error.None? {
        LineTokens(before.state, lines[|lines| - 1]);
      }
    }
  }

  /** Whatever the source text, pass 1 binds tokens to tokens. */
  lemma Pass1Tokens(st: State, inputCode: string)
    requires Tokens(st.symtab)
    ensures Tokens(Pass1(st, inputCode).state.symtab)
  {
    LinesTokens(st, SplitOn(inputCode, '\n'));
  }

  // ---------------------------------------------------------------- newline-free entries

  /** No line holds a newline: joining them with "\n" can be split back into them. */
  predicate Unbroken(lines: seq<string>)
  {
    forall i :: 0 <= i < |lines| ==> '\n' !in lines[i]
  }

  /** One line of pass 1, itself newline-free, records only a newline-free entry. */
  lemma LineUnbroken(st: State, line: string)
    requires Unbroken(st.intermediateFile) && '\n' !in line
    ensures Unbroken(Line(st, line).state.intermediateFile)
  {
    var parts := Split(line);
    var r := Line(st, line).state;
    if !IsStartLine(parts) && (|parts| == 2 || |parts| == 3) {
      var operand := if |parts| == 3 then parts[2] else "";
      PyHexIsToken(st.locctr);
      NoNewline(PyHex(st.locctr));
      NoNewline(parts[0]);
      NoNewline(parts[1]);
      if |parts| == 3 {
        NoNewline(parts[2]);
      }
      var e := Entry(PyHex(st.locctr), parts[0], parts[1], operand);
      assert '\n' !in e;
      assert r.intermediateFile == st.intermediateFile + [e];
    }
  }

  /** Pass 1 over newline-free lines keeps the intermediate file newline-free. */
  lemma {:induction false} LinesUnbroken(st: State, lines: seq<string>)
    requires Unbroken(st.intermediateFile) && Unbroken(lines)
    ensures Unbroken(Lines(st, lines).state.intermediateFile)
  {
    if |lines| > 0 {
      LinesUnbroken(st, lines[..|lines| - 1]);
      var before := Lines(st, lines[..|lines| - 1]);
      if before.error.None? {
        LineUnbroken(before.state, lines[|lines| - 1]);
      }
    }
  }

  /** Whatever the source text, pass 1 records newline-free entries, so the intermediate file's
      text splits back into the entries. */
  lemma Pass1Unbroken(st: State, inputCode: string)
    requires Unbroken(st.intermediateFile)
    ensures Unbroken(Pass1(st, inputCode).state.intermediateFile)
  {
    LinesUnbroken(st, SplitOn(inputCode, '\n'));
  }
}

=== FILE: pass2.dfy ===
/**
 * Pass 2, first half: re-split each intermediate line and write the output
 * file, one line per intermediate line of three or four fields, with the
 * object code computed from the operation table and the symbol table.
 */
module PassTwo {
  import opened Wrappers
  import opened Text
  import opened Hex
  import opened Symtab
  import opened AsmState
  import PassOne

  /** The object code of an instruction: its prefix from the table, then the operand's address,
      or "0000" when the operand is not a bound label. */
  function InstructionCode(optab: map<string, string>, symtab: Table, opcode: string, operand: string): string
    requires opcode in optab
  {
    optab[opcode] + match Lookup(symtab, operand) case Some(address) => address case None => "0000"
  }

  /** Python's `operand[2:-1]`: the text of a `C'..'` or `X'..'` literal between its two-character
      opening and its closing quote; empty when the operand has fewer than three characters. */
  function LiteralText(operand: string): (r: string)
    ensures |r| == if |operand| >= 3 then |operand| - 3 else 0
    ensures forall i :: 0 <= i < |r| ==> r[i] == operand[i + 2]
  {
    if |operand| >= 3 then operand[2..|operand| - 1] else ""
  }

  /** The `obj_code` of `process_line_pass2`: the instruction code for an opcode of the table, the
      literal text for BYTE, the value as six hex digits for WORD (`int()` can raise), else nothing. */
  function ObjectCode(optab: map<string, string>, symtab: Table, opcode: string, operand: string): Result<string, Error>
  {
    if opcode in optab then Ok(InstructionCode(optab, symtab, opcode, operand))
    else if opcode == "BYTE" then Ok(LiteralText(operand))
    else if opcode == "WORD" then
      match ParseDecimal(operand)
      case None => Err(InvalidLiteral(operand, 10))
      case Some(n) => Ok(FormatHex(n, 6))
    else Ok("")
  }

  /** `process_line_pass2`: append address, label, opcode, operand and object code, tab separated. */
  function ProcessLine(st: State, fields: seq<string>): Run
    requires |fields| == 3 || |fields| == 4
  {
    var operand := if |fields| == 4 then fields[3] else "";
    match ObjectCode(st.optab, st.symtab, fields[2], operand)
    case Err(e) => Run(st, Some(e))
    case Ok(code) => Run(st.(outputFile := st.outputFile + [ListingLine(fields, code)]), None)
  }

  /** An output line: address, label, opcode, operand (empty for three fields) and object code,
      tab separated. */
  function ListingLine(fields: seq<string>, code: string): string
    requires |fields| == 3 || |fields| == 4
  {
    var operand := if |fields| == 4 then fields[3] else "";
    fields[0] + "\t" + fields[1] + "\t" + fields[2] + "\t" + operand + "\t" + code
  }

  /** The loop of `generate_output_file` over `lines`, stopping at the first exception. */
  function Lines(st: State, lines: seq<string>): Run
  {
    if |lines| == 0 then Run(st, None)
    else
      var before := Lines(st, lines[..|lines| - 1]);
      if before.error.Some? then before else Line(before.state, lines[|lines| - 1])
  }

  /** One iteration of the loop: an entry with three or four fields is listed, any other skipped. */
  function Line(st: State, entry: string): Run
  {
    var fields := Split(entry);
    if |fields| == 3 || |fields| == 4 then ProcessLine(st, fields) else Run(st, None)
  }

  /** `generate_output_file`: the loop over the intermediate file. */
  function GenerateOutputFile(st: State): Run
  {
    Lines(st, st.intermediateFile)
  }

  // ---------------------------------------------------------------- lemmas

  /** The intermediate lines pass 2 lists: those with three or four fields. */
  function Listed(lines: seq<string>): (r: seq<string>)
    ensures |r| <= |lines|
  {
    if |lines| == 0 then []
    else
      var fields := Split(lines[|lines| - 1]);
      Listed(lines[..|lines| - 1]) + (if |fields| == 3 || |fields| == 4 then [lines[|lines| - 1]] else [])
  }

  /** `out` is the output line listed for intermediate line `entry`: the entry's four fields (the
      operand empty when it has three) and its object code, tab separated. */
  predicate ListedFor(optab: map<string, string>, symtab: Table, out: string, entry: string)
  {
    var f := Split(entry);
    var operand := if |f| == 4 then f[3] else "";
    (|f| == 3 || |f| == 4)
    && ObjectCode(optab, symtab, f[2], operand).Ok?
    && out == ListingLine(f, ObjectCode(optab, symtab, f[2], operand).value)
  }

  /** The output lines the loop writes for `lines` when none raises: one per listed entry. */
  function Expected(optab: map<string, string>, symtab: Table, lines: seq<string>): seq<string>
  {
    if |lines| == 0 then []
    else
      var f := Split(lines[|lines| - 1]);
      var operand := if |f| == 4 then f[3] else "";
      Expected(optab, symtab, lines[..|lines| - 1])
      + if |f| == 3 || |f| == 4 then
          match ObjectCode(optab, symtab, f[2], operand)
          case Ok(code) => [ListingLine(f, code)]
          case Err(_) => []
        else []
  }

  /** A WORD operand that is not a decimal integer (and WORD not in the table) makes `int()` raise. */
  predicate Raises(optab: map<string, string>, entry: string)
  {
    var f := Split(entry);
    (|f| == 3 || |f| == 4) && f[2] !in optab && f[2] == "WORD"
    && ParseDecimal(if |f| == 4 then f[3] else "").None?
  }

  /** One entry: listed when it has three or four fields, raising exactly when `Raises` says so;
      nothing but the output file changes. */
  lemma ListLine(st: State, entry: string)
    ensures
      var r := Line(st, entry);
      && r.state.(outputFile := st.outputFile) == st
      && (r.error.Some? <==> Raises(st.optab, entry))
      && (r.error.None? ==> r.state.outputFile == st.outputFile + Expected(st.optab, st.symtab, [entry]))
  {
    assert [entry][..0] == [];
  }

  /** The output file gets exactly one line per listed intermediate line, in order; nothing but the
      output file changes; and the loop raises exactly when some listed line is a WORD whose operand
      is not a decimal integer. */
  lemma OutputLines(st: State, lines: seq<string>)
    ensures
      var r := Lines(st, lines);
      && r.state.(outputFile := st.outputFile) == st
      && (r.error.Some? <==> exists i :: 0 <= i < |lines| && Raises(st.optab, lines[i]))
      && (r.error.None? ==>
            && |r.state.outputFile| == |st.outputFile| + |Listed(lines)|
            && r.state.outputFile[..|st.outputFile|] == st.outputFile
            && forall j :: 0 <= j < |Listed(lines)| ==>
                 ListedFor(st.optab, st.symtab, r.state.outputFile[|st.outputFile| + j], Listed(lines)[j]))
  {
    OutputFrame(st, lines);
    OutputRaises(st, lines);
    var r := Lines(st, lines);
    if r.error.None? {
      OutputListing(st, lines);
      ExpectedListed(st.optab, st.symtab, lines);
      var n := |st.outputFile|;
      assert r.state.outputFile[..n] == st.outputFile;
      forall j | 0 <= j < |Listed(lines)|
        ensures ListedFor(st.optab, st.symtab, r.state.outputFile[n + j], Listed(lines)[j])
      {
        assert r.state.outputFile[n + j] == Expected(st.optab, st.symtab, lines)[j];
      }
    }
  }

  /** The listing loop changes nothing but the output file. */
  lemma {:induction false} OutputFrame(st: State, lines: seq<string>)
    ensures Lines(st, lines).state.(outputFile := st.outputFile) == st
  {
    if |lines| > 0 {
      OutputFrame(st, lines[..|lines| - 1]);
      var before := Lines(st, lines[..|lines| - 1]);
      if before.error.None? {
        ListLine(before.state, lines[|lines| - 1]);
      }
    }
  }

  /** The listing loop raises exactly when some entry is a WORD whose operand is not decimal. */
  lemma {:induction false} OutputRaises(st: State, lines: seq<string>)
    ensures Lines(st, lines).error.Some? <==> exists i :: 0 <= i < |lines| && Raises(st.optab, lines[i])
  {
    if |lines| > 0 {
      var k := |lines| - 1;
      var prefix := lines[..k];
      OutputRaises(st, prefix);
      OutputFrame(st, prefix);
      assert forall i :: 0 <= i < k ==> prefix[i] == lines[i];
      var before := Lines(st, prefix);
      if before.error.None? {
        ListLine(before.state, lines[k]);
      }
    }
  }

  /** Without an exception, the loop appends exactly the expected lines. */
  lemma {:induction false} OutputListing(st: State, lines: seq<string>)
    requires Lines(st, lines).error.None?
    ensures Lines(st, lines).state.outputFile == st.outputFile + Expected(st.optab, st.symtab, lines)
  {
    if |lines| > 0 {
      var k := |lines| - 1;
      var prefix := lines[..k];
      OutputListing(st, prefix);
      OutputFrame(st, prefix);
      var before := Lines(st, prefix);
      ListLine(before.state, lines[k]);
      assert [lines[k]][..0] == [];
    }
  }

  /** When no entry raises, the expected lines are the listed entries' output lines, in order. */
  lemma {:induction false} ExpectedListed(optab: map<string, string>, symtab: Table, lines: seq<string>)
    requires forall i :: 0 <= i < |lines| ==> !Raises(optab, lines[i])
    ensures var e := Expected(optab, symtab, lines);
      |e| == |Listed(lines)| && forall j :: 0 <= j < |e| ==> ListedFor(optab, symtab, e[j], Listed(lines)[j])
  {
    if |lines| > 0 {
      var k := |lines| - 1;
      var prefix := lines[..k];
      assert forall i :: 0 <= i < k ==> prefix[i] == lines[i];
      ExpectedListed(optab, symtab, prefix);
      var e := Expected(optab, symtab, lines);
      var q := Expected(optab, symtab, prefix);
      var p := Listed(lines);
      var pq := Listed(prefix);
      forall j | 0 <= j < |e|
        ensures ListedFor(optab, symtab, e[j], p[j])
      {
        if j < |q| {
          assert e[j] == q[j] && p[j] == pq[j];
        }
      }
    }
  }

  /** The loop stops at its first exception: later lines change nothing. */
  lemma {:induction false} LinesStop(st: State, lines: seq<string>, i: nat)
    requires i <= |lines|
    requires Lines(st, lines[..i]).error.Some?
    ensures Lines(st, lines) == Lines(st, lines[..i])
    decreases |lines| - i
  {
    if i < |lines| {
      assert lines[..i + 1][..i] == lines[..i];
      LinesStop(st, lines, i + 1);
    } else {
      assert lines[..i] == lines;
    }
  }

  /** Forward references: when the symbol table agrees with the intermediate file (as pass 1 leaves
      it), an instruction's object code is its prefix followed by the address of the operand's last
      definition, wherever in the program that is, or by "0000" when the operand is never defined. */
  lemma ResolvesToDefinition(st: State, opcode: string, operand: string)
    requires PassOne.SymtabAgrees(st)
    requires opcode in st.optab
    ensures ObjectCode(st.optab, st.symtab, opcode, operand)
         == Ok(st.optab[opcode] + match PassOne.LastDefinition(st.intermediateFile, operand)
                                  case Some(address) => address case None => "0000")
  {
    assert Lookup(st.symtab, operand) == PassOne.LastDefinition(st.intermediateFile, operand);
  }

  /** A WORD's object code reads back, as hex, as the operand's value; it is exactly six digits when
      that value is below 16^6. */
  lemma WordCodeReadsBack(optab: map<string, string>, symtab: Table, operand: string)
    requires "WORD" !in optab
    requires ParseDecimal(operand).Some?
    ensures
      var n := ParseDecimal(operand).value;
      var code := ObjectCode(optab, symtab, "WORD", operand);
      && code.Ok?
      && ParseHex(code.value) == Some(n)
      && (0 <= n < Pow16(6) ==> |code.value| == 6)
      && (0 <= n ==> forall i :: 0 <= i < |code.value| ==> IsUpperDigit(code.value[i]))
      && (n < 0 ==> code.value[0] == '-' && forall i :: 1 <= i < |code.value| ==> IsUpperDigit(code.value[i]))
  {
    var n := ParseDecimal(operand).value;
    FormatHexRoundTrip(n, 6);
    if 0 <= n {
      PaddedDigits(n, 6);
      if n < Pow16(6) {
        DigitsFit(n, 6, true);
      }
    } else {
      PaddedDigits(-n, 5);
    }
  }

  /** The START record that pass 1 writes has four fields, so pass 2 lists it too, with its
      address "-" and (START not being in the table) an empty object code. */
  lemma StartRecordListed(st: State, line: string)
    requires PassOne.IsStartLine(Split(line))
    requires "START" !in st.optab
    ensures
      var parts := Split(line);
      var r := Lines(st, ["-\t" + line]);
      && r.error.None?
      && r.state.outputFile == st.outputFile + ["-\t" + parts[0] + "\tSTART\t" + parts[2] + "\t"]
  {
    assert IsToken("-");
    SplitTabPrefixed("-", line);
    assert "-\t" + line == "-" + "\t" + line;
    assert ["-\t" + line][..0] == [];
    var parts := Split(line);
    var f := Split("-\t" + line);
    assert f == ["-", parts[0], "START", parts[2]];
    assert ObjectCode(st.optab, st.symtab, "START", parts[2]) == Ok("");
    StartListingLine(parts[0], parts[2]);
  }

  lemma StartListingLine(name: string, address: string)
    ensures ListingLine(["-", name, "START", address], "") == "-\t" + name + "\tSTART\t" + address + "\t"
  {
    assert "-" + "\t" + name + "\t" + "START" + "\t" + address + "\t" + ""
        == "-\t" + name + "\tSTART\t" + address + "\t";
  }
}

=== FILE: state.dfy ===
/**
 * The assembler's fields, as one value, and the exceptions its passes can raise.
 */
module AsmState {
  import opened Wrappers
  import opened Symtab

  /** The exceptions the source raises: `int()` rejecting a literal (ValueError), and indexing a
      missing intermediate line or a missing field of one (IndexError). */
  datatype Error =
    | InvalidLiteral(literal: string, base: nat)
    | IndexOutOfRange

  /** The fields of an `Assembler`: the operation table it was given, the symbol table, the
      intermediate file, the output file, the object program lines and the location counter. */
  datatype State = State(
    optab: map<string, string>,
    symtab: Table,
    intermediateFile: seq<string>,
    outputFile: seq<string>,
    objectCode: seq<string>,
    locctr: int)

  /** The fields after a call, and the exception it raised, if any. After an exception the fields
      are as far as the call had got when it was raised. */
  datatype Run = Run(state: State, error: Option<Error>)

  /** A freshly constructed assembler over `optab`. */
  function Initial(optab: map<string, string>): (st: State)
    ensures st.optab == optab && st.locctr == 0
    ensures st.symtab == [] && st.intermediateFile == [] && st.outputFile == [] && st.objectCode == []
  {
    State(optab, [], [], [], [], 0)
  }
}

=== FILE: symtab.dfy ===
/**
 * The symbol table: labels bound to addresses (lower-case hex strings). It is a
 * Python dict, so it iterates in insertion order and rebinding a symbol keeps the
 * symbol's original position; the model is the sequence of entries in that order.
 */
module Symtab {
  import opened Wrappers
  import opened Text

  type Table = seq<(string, string)>

  /** The labels, in insertion order. */
  function Labels(t: Table): (r: seq<string>)
    ensures |r| == |t| && forall i :: 0 <= i < |t| ==> r[i] == t[i].0
  {
    if t == [] then [] else [t[0].0] + Labels(t[1..])
  }

  /** No symbol occurs twice (a dict key is unique). */
  predicate UniqueLabels(t: Table)
  {
    forall i, j :: 0 <= i < j < |t| ==> t[i].0 != t[j].0
  }

  /** `label in symtab` and `symtab[label]`. */
  function Lookup(t: Table, symbol: string): (r: Option<string>)
    ensures r.None? <==> forall i :: 0 <= i < |t| ==> t[i].0 != symbol
    ensures r.Some? ==> exists i :: 0 <= i < |t| && t[i] == (symbol, r.value)
  {
    if t == [] then None
    else if t[0].0 == symbol then Some(t[0].1)
    else Lookup(t[1..], symbol)
  }

  /** `symtab[label] = address`: rebinds in place, or appends a new symbol at the end. */
  function Upsert(t: Table, symbol: string, address: string): Table
  {
    if t == [] then [(symbol, address)]
    else if t[0].0 == symbol then [(symbol, address)] + t[1..]
    else [t[0]] + Upsert(t[1..], symbol, address)
  }

  /** After binding, the symbol reads back as the new address and every other symbol is unchanged. */
  lemma {:induction false} LookupUpsert(t: Table, symbol: string, address: string, other: string)
    ensures Lookup(Upsert(t, symbol, address), other)
         == if other == symbol then Some(address) else Lookup(t, other)
  {
    if t != [] && t[0].0 != symbol {
      LookupUpsert(t[1..], symbol, address, other);
    }
  }

  /** Binding keeps labels unique and keeps insertion order: a known symbol stays where it was,
      a new one is appended. */
  lemma UpsertOrder(t: Table, symbol: string, address: string)
    requires UniqueLabels(t)
    ensures UniqueLabels(Upsert(t, symbol, address))
    ensures Labels(Upsert(t, symbol, address))
         == if Lookup(t, symbol).Some? then Labels(t) else Labels(t) + [symbol]
  {
    UpsertLabels(t, symbol, address);
    var r := Upsert(t, symbol, address);
    var labels := Labels(r);
    var old_labels := Labels(t);
    var known := Lookup(t, symbol).Some?;
    forall i, j | 0 <= i < j < |r|
      ensures r[i].0 != r[j].0
    {
      assert labels[i] == r[i].0 && labels[j] == r[j].0;
      assert labels[i] == old_labels[i] == t[i].0;
      if known || j < |t| {
        assert labels[j] == old_labels[j] == t[j].0;
      } else {
        assert labels[j] == symbol;
      }
    }
  }

  /** The labels after binding: unchanged when the symbol is known, else the symbol appended. */
  lemma {:induction false} UpsertLabels(t: Table, symbol: string, address: string)
    ensures Labels(Upsert(t, symbol, address))
         == if Lookup(t, symbol).Some? then Labels(t) else Labels(t) + [symbol]
  {
    if t != [] && t[0].0 != symbol {
      UpsertLabels(t[1..], symbol, address);
      assert Labels(t) == [t[0].0] + Labels(t[1..]);
    }
  }

  /** Every label and every address is a `str.split()` token. */
  predicate Tokens(t: Table)
  {
    forall i :: 0 <= i < |t| ==> IsToken(t[i].0) && IsToken(t[i].1)
  }

  /** Binding a token to a token keeps every label and address a token. */
  lemma {:induction false} UpsertTokens(t: Table, symbol: string, address: string)
    requires Tokens(t) && IsToken(symbol) && IsToken(address)
    ensures Tokens(Upsert(t, symbol, address))
  {
    if t != [] && t[0].0 != symbol {
      UpsertTokens(t[1..], symbol, address);
      assert Upsert(t, symbol, address) == [t[0]] + Upsert(t[1..], symbol, address);
    }
  }

  /** The lines of `get_symtab`: `symbol\taddress\t0`, in insertion order. */
  function Listing(t: Table): (r: seq<string>)
    ensures |r| == |t|
    ensures forall i :: 0 <= i < |t| ==> r[i] == t[i].0 + "\t" + t[i].1 + "\t0"
  {
    if t == [] then [] else [t[0].0 + "\t" + t[0].1 + "\t0"] + Listing(t[1..])
  }

  /** A listing line splits back into the label, its address and the flags column "0". */
  lemma ListingFields(symbol: string, address: string)
    requires IsToken(symbol) && IsToken(address)
    ensures Split(symbol + "\t" + address + "\t0") == [symbol, address, "0"]
  {
    var zero := "0";
    assert IsToken(zero);
    assert Split(zero) == [zero] by {
      SplitAfterToken(zero, []);
      assert zero + [] == zero;
    }
    var tail := address + "\t" + zero;
    assert symbol + "\t" + address + "\t0" == symbol + "\t" + tail;
    SplitTabPrefixed(symbol, tail);
    SplitTabPrefixed(address, zero);
    calc {
      Split(symbol + "\t" + tail);
      [symbol] + Split(tail);
      [symbol] + ([address] + [zero]);
      [symbol, address, "0"];
    }
  }

  /** Over a table of tokens, every listing line is newline-free and splits back into its label,
      its address and "0". */
  lemma ListingTokens(t: Table)
    requires Tokens(t)
    ensures forall i :: 0 <= i < |t| ==>
      '\n' !in Listing(t)[i] && Split(Listing(t)[i]) == [t[i].0, t[i].1, "0"]
  {
    forall i | 0 <= i < |t|
      ensures '\n' !in Listing(t)[i] && Split(Listing(t)[i]) == [t[i].0, t[i].1, "0"]
    {
      ListingLineTokens(t[i].0, t[i].1);
    }
  }

  lemma ListingLineTokens(symbol: string, address: string)
    requires IsToken(symbol) && IsToken(address)
    ensures var line := symbol + "\t" + address + "\t0";
      '\n' !in line && Split(line) == [symbol, address, "0"]
  {
    ListingFields(symbol, address);
    NoNewline(symbol);
    NoNewline(address);
  }

  /** A token holds no newline, which is whitespace. */
  lemma NoNewline(token: string)
    requires IsToken(token)
    ensures '\n' !in token
  {
    assert IsSpace('\n');
  }
}

=== FILE: text.dfy ===
/**
 * The string handling the assembler relies on: Python's `str.split()` (split on
 * runs of whitespace), `str.split(sep)` for one separator character, and
 * `sep.join(parts)`.
 */
module Text {

  /** Python's `str.isspace()` for a single character, by code point. */
  predicate IsSpace(c: char)
  {
    var n := c as int;
    (9 <= n <= 13) || (0x1C <= n <= 0x20) || n == 0x85 || n == 0xA0 || n == 0x1680
    || (0x2000 <= n <= 0x200A) || n == 0x2028 || n == 0x2029 || n == 0x202F
    || n == 0x205F || n == 0x3000
  }

  /** A token of `str.split()`: non-empty and free of whitespace. */
  predicate IsToken(t: string)
  {
    |t| > 0 && forall i :: 0 <= i < |t| ==> !IsSpace(t[i])
  }

  /** Length of the leading run of non-whitespace characters of `s`. */
  function TokenLength(s: string): (n: nat)
    ensures n <= |s|
    ensures forall i :: 0 <= i < n ==> !IsSpace(s[i])
    ensures n < |s| ==> IsSpace(s[n])
  {
    if s == [] || IsSpace(s[0]) then 0 else 1 + TokenLength(s[1..])
  }

  /** Python's `s.split()`: the maximal runs of non-whitespace characters, in order. */
  function Split(s: string): (r: seq<string>)
    ensures forall i :: 0 <= i < |r| ==> IsToken(r[i])
    decreases |s|
  {
    if s == [] then []
    else if IsSpace(s[0]) then Split(s[1..])
    else
      var n := TokenLength(s);
      [s[..n]] + Split(s[n..])
  }

  /** A token followed by whitespace (or nothing) splits off as the first field. */
  lemma {:induction false} SplitAfterToken(t: string, rest: string)
    requires IsToken(t)
    requires rest == [] || IsSpace(rest[0])
    ensures Split(t + rest) == [t] + Split(rest)
  {
    var s := t + rest;
    TokenLengthOf(t, rest);
    assert s[..|t|] == t;
    assert s[|t|..] == rest;
  }

  lemma {:induction false} TokenLengthOf(t: string, rest: string)
    requires forall i :: 0 <= i < |t| ==> !IsSpace(t[i])
    requires rest == [] || IsSpace(rest[0])
    ensures TokenLength(t + rest) == |t|
    decreases |t|
  {
    if t != [] {
      assert (t + rest)[1..] == t[1..] + rest;
      TokenLengthOf(t[1..], rest);
    }
  }

  /** The tab-separated record `a\tb\tc\td` splits back into its fields; an empty last field vanishes. */
  lemma {:induction false} SplitFourFields(a: string, b: string, c: string, d: string)
    requires IsToken(a) && IsToken(b) && IsToken(c)
    requires d == [] || IsToken(d)
    ensures Split(a + "\t" + (b + "\t" + (c + "\t" + d))) == [a, b, c] + (if d == [] then [] else [d])
  {
    SplitLastField(c, d);
    SplitTabPrefixed(b, c + "\t" + d);
    SplitTabPrefixed(a, b + "\t" + (c + "\t" + d));
  }

  /** `c\td` splits into `c` and, unless it is empty, `d`. */
  lemma SplitLastField(c: string, d: string)
    requires IsToken(c)
    requires d == [] || IsToken(d)
    ensures Split(c + "\t" + d) == [c] + (if d == [] then [] else [d])
  {
    SplitTabPrefixed(c, d);
    if d != [] {
      SplitAfterToken(d, []);
      assert d + [] == d;
    }
  }

  /** Re-associating the tab-separated record. */
  lemma TabNested(a: string, b: string, c: string, d: string)
    ensures a + "\t" + b + "\t" + c + "\t" + d == a + "\t" + (b + "\t" + (c + "\t" + d))
  {
  }

  /** Prefixing a token and a tab to a line adds that token as a new first field. */
  lemma {:induction false} SplitTabPrefixed(t: string, line: string)
    requires IsToken(t)
    ensures Split(t + "\t" + line) == [t] + Split(line)
  {
    assert t + "\t" + line == t + ("\t" + line);
    SplitAfterToken(t, "\t" + line);
    assert ("\t" + line)[1..] == line;
  }

  /** `str.split()` finds no piece exactly when the text is all whitespace (or empty). */
  lemma {:induction false} SplitNone(s: string)
    ensures Split(s) == [] <==> forall i :: 0 <= i < |s| ==> IsSpace(s[i])
    decreases |s|
  {
    if s != [] && IsSpace(s[0]) {
      SplitNone(s[1..]);
      assert forall i :: 1 <= i < |s| ==> s[i] == s[1..][i - 1];
    }
  }

  /** Tokens joined by tabs split back into exactly those tokens, in order. */
  lemma {:induction false} SplitJoinTokens(tokens: seq<string>)
    requires forall i :: 0 <= i < |tokens| ==> IsToken(tokens[i])
    ensures Split(Join("\t", tokens)) == tokens
  {
    if |tokens| == 1 {
      SplitAfterToken(tokens[0], []);
      assert tokens[0] + [] == tokens[0];
    } else if |tokens| > 1 {
      SplitJoinTokens(tokens[1..]);
      SplitTabPrefixed(tokens[0], Join("\t", tokens[1..]));
      assert tokens == [tokens[0]] + tokens[1..];
    }
  }

  /** Python's `s.split(sep)` for a one-character separator: never empty, pieces free of `sep`. */
  function SplitOn(s: string, sep: char): (r: seq<string>)
    ensures |r| >= 1
    ensures forall i :: 0 <= i < |r| ==> sep !in r[i]
  {
    if s == [] then [""]
    else
      var rest := SplitOn(s[1..], sep);
      if s[0] == sep then [""] + rest
      else [[s[0]] + rest[0]] + rest[1..]
  }

  /** Python's `sep.join(parts)`. */
  function Join(sep: string, parts: seq<string>): string
  {
    if |parts| == 0 then ""
    else if |parts| == 1 then parts[0]
    else parts[0] + sep + Join(sep, parts[1..])
  }

  /** Joining the pieces of a split with the same separator restores the text. */
  lemma {:induction false} JoinSplitOn(s: string, sep: char)
    ensures Join([sep], SplitOn(s, sep)) == s
  {
    if s != [] {
      var rest := SplitOn(s[1..], sep);
      JoinSplitOn(s[1..], sep);
      if s[0] == sep {
        assert SplitOn(s, sep) == [""] + rest;
        assert ([""] + rest)[1..] == rest;
      } else {
        var r := SplitOn(s, sep);
        assert r[1..] == rest[1..];
        if |rest| == 1 {
          assert Join([sep], rest) == rest[0];
        } else {
          assert rest == [rest[0]] + rest[1..];
          assert Join([sep], rest) == rest[0] + [sep] + Join([sep], rest[1..]);
        }
      }
    }
  }

  /** Splitting a join of separator-free pieces gives the pieces back. */
  lemma {:induction false} SplitOnJoin(parts: seq<string>, sep: char)
    ensures (|parts| >= 1 && forall i :: 0 <= i < |parts| ==> sep !in parts[i])
        ==> SplitOn(Join([sep], parts), sep) == parts
    decreases |parts|
  {
    if |parts| >= 1 && forall i :: 0 <= i < |parts| ==> sep !in parts[i] {
      SplitOnJoinNonEmpty(parts, sep);
    }
  }

  lemma {:induction false} SplitOnJoinNonEmpty(parts: seq<string>, sep: char)
    requires |parts| >= 1
    requires forall i :: 0 <= i < |parts| ==> sep !in parts[i]
    ensures SplitOn(Join([sep], parts), sep) == parts
    decreases |parts|
  {
    var p := parts[0];
    if |parts| == 1 {
      SplitOnPiece(p, sep, []);
      assert p + [] == p;
    } else {
      SplitOnJoinNonEmpty(parts[1..], sep);
      SplitOnCons(p, sep, Join([sep], parts[1..]), parts[1..]);
      assert parts == [p] + parts[1..];
    }
  }

  /** A separator-free piece, the separator and a text that splits into `pieces` split into the
      piece followed by `pieces`. */
  lemma SplitOnCons(p: string, sep: char, rest: string, pieces: seq<string>)
    requires sep !in p
    requires SplitOn(rest, sep) == pieces
    ensures SplitOn(p + [sep] + rest, sep) == [p] + pieces
  {
    SplitOnPiece(p, sep, [sep] + rest);
    assert p + [sep] + rest == p + ([sep] + rest);
    assert ([sep] + rest)[1..] == rest;
  }

  /** A separator-free piece followed by `rest` becomes the first piece of the split, joined with
      the first piece of `rest` when `rest` does not begin with the separator. */
  lemma {:induction false} SplitOnPiece(p: string, sep: char, rest: string)
    requires sep !in p
    requires rest == [] || rest[0] == sep
    ensures rest == [] ==> SplitOn(p + rest, sep) == [p]
    ensures rest != [] ==> SplitOn(p + rest, sep) == [p] + SplitOn(rest[1..], sep)
    decreases |p|
  {
    if p == [] {
      assert p + rest == rest;
    } else {
      assert (p + rest)[1..] == p[1..] + rest;
      SplitOnPiece(p[1..], sep, rest);
      assert [p[0]] + p[1..] == p;
    }
  }

  /** Joining one more piece puts the separator and the piece at the end. */
  lemma {:induction false} JoinAppend(sep: string, parts: seq<string>, last: string)
    requires |parts| >= 1
    ensures Join(sep, parts + [last]) == Join(sep, parts) + sep + last
    decreases |parts|
  {
    if |parts| == 1 {
      assert parts + [last] == [parts[0], last];
      assert [parts[0], last][1..] == [last];
    } else {
      assert (parts + [last])[1..] == parts[1..] + [last];
      JoinAppend(sep, parts[1..], last);
    }
  }

  /** Python's `s.rstrip(c)`: `s` without its trailing run of `c`. */
  function TrimEnd(s: string, c: char): (r: string)
    ensures |r| <= |s| && r == s[..|r|]
    ensures r == [] || r[|r| - 1] != c
    ensures forall i :: |r| <= i < |s| ==> s[i] == c
  {
    if s == [] || s[|s| - 1] != c then s else TrimEnd(s[..|s| - 1], c)
  }
}

=== FILE: wrappers.dfy ===
/** Option and Result, used for Python's "missing value" and raised exceptions. */
module Wrappers {

  datatype Option<+T> = None | Some(value: T)

  datatype Result<+T, +E> = Ok(value: T) | Err(error: E)
}
